=== FILE: README.md ===
# drupal-client in Dafny

A model of the core of drupal-client, a JavaScript adapter for the REST
server of Drupal's Services module. The model covers three parts:

- **Field shaping.** `structureField` wraps any value in the
  `{und: [...]}` envelope Drupal expects for a field. There are two
  revisions. The newer one cuts a Date to whole seconds, in place, and sends
  its JSON text. The older one wraps the Date unchanged. The older module
  also has `basicField`.
- **Query and body encoders.** These are `serializeDrupalViewsFilter`,
  `encodeUrlString` and the form-urlencoded body rewrite in `makeRequest`.
  All three rest on `encodeURIComponent` (ECMA-262 5.1 section 15.1.3.4),
  which is modelled over UTF-8 with upper-case hex as in section 2.1 of
  RFC 3986. A reference reader (`Query.ParseQuery`: split on `&`, split each
  piece at its first `=`, decode both sides with `decodeURIComponent`) is the
  partner every encoder is proved against. The older `drupal.js` carries
  its own `serializeDrupalViewsFilter` and `encodeUrlString`. They do the
  same steps as the ones in `lib/` and give the same text, so `Query`
  models each encoder once.
- **The session and credential state machine** of both revisions
  (`lib/drupal.js` and the older `drupal.js`). This covers the CSRF token
  fetch and its cache, `systemConnect`, header assembly, `makeRequest`,
  `makeAuthenticatedRequest`, `login`, `logout` and the resource wrappers.

The modules are `JsValues` (the JavaScript values and semantics used:
`typeof`, the class tag behind `isArray`, `ToString`, `for-in` keys,
`Object.keys`), `Text`, `Uri`, `Query`, `Field`, `Session` (the shared
store, request and outcome types), `Client` (`lib/drupal.js`),
`LegacyClient` (`drupal.js`) and `Resources` (the wrappers of both
revisions).

Each operation is a pure function:

- The credential store is a map from setting names to strings. Writing
  `null` removes the key. Keys carry the instance's settings prefix.
- The transport is a script of answers. Each answer is a transport error, or
  a status with the response text and the parsed reply.
- Every request an operation sends consumes the next answer in the script.
  An operation that runs out of answers ends `Pending`, because its callback
  never fires.
- The result of an operation is a `Step`: the new store, the outcome, the
  requests sent in order, and the unread answers.

The newer `systemConnect` retries on a 401 with no bound. Because every
round consumes answers, the model terminates without a fuel parameter.
`Client.UnboundedRetryOn401` proves that a server which keeps answering 401
keeps the client waiting forever.

The engine behaviour the client relies on but does not define is a
parameter (`JsValues.Host`):

- `Date.prototype.toString`, used when a Date is concatenated or encoded;
- `Date.prototype.toJSON`;
- `JSON.stringify`.

Three behaviours of the code are easy to misread, and the model follows
the code:

- `systemConnect` retries after every 401, with no bound, not just once.
- A failed connect hands the failure callback only the response text, not
  the status.
- A failed token fetch hands the caller the transport's raw error, with no
  wrapping of its own.

`Object.keys` is modelled as ECMA-262 has specified it since the 2015
edition: it throws only on `null` and `undefined`, and a string gives its
indices. Under the 5.1 edition, every primitive throws.

## Model

| member | source | states |
|---|---|---|
| `JsValues.IsArrayExactlyArrays` | lib/drupal_field_structure.js:54-57 | the `Object.prototype.toString` tag test is true of arrays and of nothing else |
| `JsValues.IndexKeysReadBack` | lib/drupal.js:553-556 | the keys `for-in` visits on an array or a string are decimal digits that read back as their index, so they are pairwise distinct |
| `JsValues.ParseNatToString` | lib/drupal.js:553 | the decimal text of an index reads back as that index, so array keys are distinct |
| `JsValues.IntToStringInjective` | lib/drupal.js:555 | different integers convert to different text, so a number argument is never confused with another |
| `Uri.EncodeUriComponent` | lib/field.js:80-84 | the output only holds unreserved characters and `%`, every `%` is followed by two upper-case hex digits, the output is never shorter than the input, and unreserved characters are kept |
| `Uri.EncodedHasNoDelimiters` | lib/drupal.js:322 | an encoded component never holds `&`, `=`, space, `+` or `?`, so it cannot break a query apart |
| `Uri.SpaceIsPercentTwenty` | lib/drupal.js:555 | a space becomes `%20`, not `+` |
| `Uri.Utf8RoundTrip` | lib/field.js:84 | the UTF-8 bytes written for a character decode back to that character |
| `Uri.DecodeEncode` | lib/field.js:84 | `decodeURIComponent` undoes `encodeURIComponent` on every string |
| `Uri.EncodeInjective` | lib/field.js:80 | different strings encode differently |
| `Uri.DecodePlain` | lib/drupal.js:555 | a string without `%` decodes to itself |
| `Text.ContainsIff` | lib/drupal.js:320 | the substring test behind the form-type check holds exactly when the text occurs at some index |
| `Query.SerializeDrupalViewsFilter` | lib/field.js:74-88 | the serialized filter reads back as one pair per array element and one per other value, in key and element order; it is empty exactly when there are no such pairs |
| `Query.FilterPairs` | lib/field.js:76-86 | the number of pairs is the sum over the keys of the array length, or 1 for a non-array |
| `Query.FilterTestVector` | test/drupal.spec.js:214-221 | `{'arg[]': [1,2,3]}` serializes to text that decodes to `arg[]=1&arg[]=2&arg[]=3` |
| `Query.EncodeUrlString` | lib/drupal.js:551-558 | the result is empty exactly when `args` has no `for-in` keys; when no key holds `&`, `=` or `%`, it reads back as each key with the string of its value, in order |
| `Query.UrlKeyNotEncoded` | lib/drupal.js:555 | keys are not encoded: the key `a&b` produces `a&b=c`, which no reader can split back |
| `Query.FormEncode` | lib/drupal.js:320-324 | the form rewrite fails exactly on `null` or `undefined` params; otherwise it reads back as one pair per key, in order, with the string of each value |
| `Query.FormMatchesFilterWithoutArrays` | lib/drupal.js:321-323 | on an object without array values the form body and the views filter are the same text |
| `Field.LabelKey` | lib/field.js:8 | the key is never empty; a non-empty label is kept and a missing or empty one becomes `value` |
| `Field.TruncateToSecond` | lib/field.js:26-28 | the result is a multiple of 1000, between the time value and zero, and less than a second away from it |
| `Field.TruncateUnique` | lib/field.js:27 | the truncation is the only whole second with those properties |
| `Field.TruncateIdempotent` | lib/field.js:26-28 | a time value on a whole second is kept; truncating twice is truncating once |
| `Field.StructureField` | lib/field.js:5-59 | always an envelope with the single key `und` holding an array: one labelled entry per array element in order; for a Date the argument becomes the truncated Date and the one entry is `{value: toJSON}` whatever the label; `null` and objects are the sole entry unchanged; a scalar is `{label: value}` |
| `Field.StructureFieldLegacy` | lib/drupal_field_structure.js:5-50 | the same envelope, but a Date is wrapped unchanged under `value` and never modified |
| `Field.BasicField` | drupal.js:413-417 | `basicField(obj)` is an envelope whose sole entry is `obj` |
| `Field.ObjectBranchExactly` | lib/drupal_field_structure.js:33-39 | the `typeof == "object"` branch is reached by `null` and plain objects and by nothing else |
| `Field.RevisionsAgreeOffDates` | lib/drupal_field_structure.js:24-30 | the two revisions give the same field on every value but a Date, and the newer one then leaves the argument alone |
| `Field.BasicFieldIsObjectBranch` | lib/field.js:42-48 | on `null` and objects both shapers produce `basicField` of the value |
| `Field.DateShapingIdempotent` | lib/field.js:24-39 | shaping the mutated Date again gives the same field and keeps the Date |
| `Field.LabelledValuesRoundTrip` | lib/field.js:10-22 | reading the labelled values back out of the envelope gives the array's elements in order, or the scalar itself, in both revisions |
| `Session.Put` | lib/drupal.js:130 | writing a setting changes that setting and no other |
| `Session.PrefixKeysDisjoint` | lib/drupal.js:338-343 | the cookie key and the token key of any prefixes differ, and different prefixes own disjoint keys |
| `Session.PrefixIsolation` | lib/drupal.js:338-343 | a change confined to one prefix's keys leaves every other prefix's credentials as they were |
| `Session.SetRestPath` | lib/drupal.js:107-111 | the REST path starts with the site root, continues with the endpoint and ends in `/` |
| `Session.SetHeader` | lib/drupal.js:339 | after `headers[name] = v` the name is present with value `v`; other names and their headers are unchanged |
| `Session.HasHeaderAppend` | drupal.js:189-193 | a header name occurs in a concatenation of header lists exactly when it occurs in one of them |
| `Client.GetCsrfToken` | lib/drupal.js:117-149 | a truthy stored token is returned with no request; otherwise one GET of the token path, whose text is stored and returned whatever the status; a transport error leaves the store alone; only the token key changes |
| `Client.TokenCachedAfterFetch` | lib/drupal.js:119-133 | after a fetch stored a non-empty token, a second call sends nothing; an empty text is fetched again |
| `Client.SystemConnect` | lib/drupal.js:155-234 | without a token the first request is the token fetch; with one it is the POST carrying it; only cookie and token ever change; a success ends with the session cookie of the reply stored, a truthy token, and the last POST carrying that token |
| `Client.FetchThenConnect` | lib/drupal.js:158-171 | without a token, the token fetch comes first; a success after it ends with the session cookie and a truthy token, the last POST carrying it; only cookie and token change |
| `Client.ConnectRound` | lib/drupal.js:173-234 | holding a token, the first request is the POST carrying it; only cookie and token change; a success stores the session cookie of the reply |
| `Client.ConnectOutcomes` | lib/drupal.js:189-226 | 200 stores the session cookie and returns the reply after one request; a transport error clears cookie and token; any other status but 401 fails with the response text and changes nothing; a failed token fetch ends connect with nothing more sent |
| `Client.ConnectAfterFetch` | lib/drupal.js:160-171 | without a token, connect is the token fetch followed by connect from the store holding the fetched text |
| `Client.Connect401Refetches` | lib/drupal.js:203-210 | a 401 clears the token and connect starts over, so the next request is a token fetch |
| `Client.UnboundedRetryOn401` | lib/drupal.js:203-210 | against a server that hands out tokens and answers 401, connect never fails: after n rounds it has sent 2n+1 requests and is still waiting |
| `Client.RefusalRound` | lib/drupal.js:158-210 | a token fetch followed by a 401 sends two requests and leaves connect where it began: no token, and the same outcome as connecting afresh |
| `Client.ConnectFromEmptyStore` | lib/drupal.js:155-199 | from an empty store: token fetch, then the POST with that token, ending with the session cookie and the token stored |
| `Client.RequestBody` | lib/drupal.js:320-326 | params are sent unchanged unless the content type mentions the form type; then the body is the form text that reads back as the params' keys and values, or the call throws on `null` or `undefined` params |
| `Client.RequestHeaders` | lib/drupal.js:300-312 | Accept first, then Content-Type exactly when the content type is truthy, then the given headers in order |
| `Client.RequestHeadersHave` | lib/drupal.js:300-312 | makeRequest adds Content-Type and nothing else that could shadow the credential headers |
| `Client.RequestHeadersKeep` | lib/drupal.js:300-312 | every given header reaches the request, and makeRequest adds only Accept and Content-Type |
| `Client.MakeRequest` | lib/drupal.js:257-327 | one request to the REST path or a throw before sending; 200 delivers the parsed reply, any other status the response text, a transport error the error; the store is never written |
| `Client.AuthHeaders` | lib/drupal.js:337-345 | Cookie is present exactly when not skipped and not in a browser, or given by the caller; X-CSRF-Token exactly when not skipped or given; they carry the stored values; every other caller header passes through |
| `Client.AuthHeadersKeepContentType` | lib/drupal.js:335-345 | the credential headers leave the caller's Content-Type alone |
| `Client.MakeAuthenticatedRequest` | lib/drupal.js:333-348 | the one request carries Accept, Content-Type exactly when set, Cookie exactly when not skipped outside a browser, X-CSRF-Token exactly when not skipped; unless skipped, those carry the stored cookie and token; every other caller header is sent; 200 delivers the reply, any other status the response text, a transport error the error itself; the store is only read |
| `Client.StoreSession` | lib/drupal.js:398-403 | the credentials become the session cookie and the reply's token, and nothing else changes |
| `Client.Login` | lib/drupal.js:382-410 | one POST of the credentials as JSON; on 200 the cookie is `session_name=sessid`, the token is the reply's and the user is returned; otherwise nothing changes and the request's failure is passed on as it is |
| `Client.Logout` | lib/drupal.js:435-448 | on 200 the token is cleared and the cookie kept; otherwise nothing changes and the request's failure is passed on as it is |
| `LegacyClient.GetCsrfToken` | drupal.js:83-112 | a truthy stored token is returned with no request; otherwise one GET that always carries the stored cookie, and whose text is stored and returned |
| `LegacyClient.TokenCachedAfterFetch` | drupal.js:85-96 | after a fetch stored a non-empty token, a second call sends nothing |
| `LegacyClient.SystemConnect` | drupal.js:32-77 | the POST goes first, with no headers; a 200 whose `user` is `null` or `undefined` throws at the debug line before anything is stored; any other 200 stores the cookie and then makes sure of a token; any other status fails with the text and changes nothing; a transport error clears cookie and token; a success ends holding the cookie and a token |
| `LegacyClient.NoRetryOn401` | drupal.js:60-62 | a 401 is a failure like any other status: one request, no store change |
| `LegacyClient.AuthHeaders` | drupal.js:169-194 | the stored cookie unless skipped, whatever the environment; the stored token unless skipped; Accept; Content-Type when set; then the caller's headers |
| `LegacyClient.MakeAuthenticatedRequest` | drupal.js:131-203 | params go on the wire unchanged; 200 delivers the reply, any other status the text, a transport error the error; the store is only read |
| `LegacyClient.Login` | drupal.js:237-267 | on 200 the cookie is stored, the token cleared and a fresh one fetched with the new cookie; the final store, the unread answers and the second request are those of that fetch; on success the user is returned and the stored token is the fetched text; a failed fetch is passed on, leaving the cookie and no token; a failed login changes nothing and its failure is passed on as it is |
| `LegacyClient.Logout` | drupal.js:273-284 | on 200 the token is cleared, the cookie kept and no other setting touched; otherwise nothing changes and the request's failure is passed on as it is |
| `LegacyClient.LoginRevisionsDiffer` | drupal.js:253-264 | after the same successful login the newer client keeps the reply's token after one request, the older keeps the text of a second, token-fetching request; both store the same cookie |
| `Resources.ViewPathRoundTrip` | lib/drupal.js:454-460 | the getView path reads back as `views/<name>.json` and the arguments as pairs, when the name has no `?` and no key needs escaping |
| `Resources.ResourcePathRoundTrip` | lib/drupal.js:465-470 | the getResource path reads back as `<name>.json` and the arguments as pairs, when the name has no `?` and no key needs escaping |
| `Resources.DeletePathSegments` | lib/drupal.js:498-503 | the deleteResource path splits into the resource name and `<rid>.json`, when neither the name nor the text of the id holds `/` |
| `Resources.ResetPathSegments` | lib/drupal.js:416-429 | the resetPassword path splits into `user`, the uid and `password_reset.json`, when the text of the uid holds no `/` |
| `Resources.UploadIsForm` | lib/drupal.js:541 | the upload's content type names the form type, so the body is rewritten |
| `Resources.UploadBodyDecodes` | lib/drupal.js:530-545 | the newer client sends the upload as a form body that reads back as `file`, `filename` and `filesize` with their string values |
| `Resources.LegacyUploadSendsObject` | drupal.js:356-370 | the older client puts the file description object on the wire unchanged |
| `Resources.LegacyNodeCall` | drupal.js:334-351 | the older createNode is the newer one without a content type |
| `Resources.OtherBodiesSentVerbatim` | lib/drupal.js:354-525 | no other wrapper names the form type, so each sends its JSON text, or no body, unchanged |

## Left out

- `lib/httpClient.js` is not part of this model. It is the transport adapter over an npm XMLHttpRequest, and it also patches `Object.prototype` with a `uniqueId` property that `for-in` would visit. The model's `for-in` sees own properties only, never inherited enumerable ones, so under that patch the encoded query, the views filter and the header loop would each see one more key than the model shows.
- Environment detection and the storage backends are left out, because they are platform plumbing. The environment is a parameter, and the store is a plain map. Backend quirks, such as localStorage storing `null` as `"null"`, are not reproduced.
- CORS `setupCredentials` is left out. In a browser it sets `withCredentials`. In a browser without CORS support it throws `CORS not supported` before anything is sent, and that throw is not modelled. The model assumes a browser that has `withCredentials`.
- Titanium `clearCookies`, the `timeout`, `progress` and `trace` options, and logging are left out. The one exception is the debug line of the older `systemConnect`, which reads `user.uid`; its throw is modelled in `LegacyClient.SystemConnect`.
- Callback asynchrony and the `setTimeout` before the 401 retry are left out. The retry is a sequential re-invocation, and an operation whose transport never answers is `Pending`.
- `JSON.parse` of replies is left out. Replies arrive already parsed, reduced to `session_name`, `sessid`, `token` and `user`. A reply that fails to parse is not modelled.
- `JSON.stringify`, `Date.prototype.toString` and `Date.prototype.toJSON` are uninterpreted `Host` functions, because their formats belong to the engine.
- JsValues.ToStr: numbers are integers. Fractions, exponents, `NaN`, infinities and the exponent form from 1e21 up are not modelled.
- Invalid Dates, whose time value is `NaN`, are not modelled.
- Uri.EncodeUriComponent: strings are sequences of Unicode scalar values, so the URIError that `encodeURIComponent` throws on a lone surrogate cannot arise.
- Field.LabelKey: labels are strings or absent. A non-string label, which JavaScript would turn into a property name, is not modelled.
- The aliasing effects of the source are not modelled: the newer `makeAuthenticatedRequest` writes the credential headers into the caller's own header object, and `makeRequest` overwrites `config.params`. The model returns the new headers and body instead.
- Query.EncodeUrlString: the round trip is stated only for keys without `&`, `=` or `%`, because the source sends keys unencoded. `Query.UrlKeyNotEncoded` shows a key for which reading back fails.
- `setSettingsPrefix` is left out as an operation. The prefix is a field of the client configuration.
- `for-in` ordering of integer-like object keys is not modelled. Objects are ordered association lists.

=== FILE: client.dfy ===
/** The newer revision of the client (the `Drupal` prototype): token-first
    `systemConnect` that starts over after a 401, `makeRequest` with its
    header and form-body handling, `makeAuthenticatedRequest`, `login` (token
    taken from the login reply) and `logout`. Every key it stores is
    namespaced by the instance's settings prefix. */
module Client {
  import opened Wrappers
  import opened JsValues
  import opened Text
  import opened Query
  import opened Session

  function StoredCookie(cfg: Config, store: Store): Option<string> {
    Get(store, CookieKey(cfg.prefix))
  }

  function StoredToken(cfg: Config, store: Store): Option<string> {
    Get(store, TokenKey(cfg.prefix))
  }

  // ---------------------------------------------------------------------
  // getCsrfToken

  /** GET of the token endpoint; outside a browser it carries the stored
      cookie. */
  function TokenRequest(cfg: Config, store: Store): Request {
    Request(
      "GET",
      cfg.paths.siteRoot + "services/session/token",
      if cfg.env != Browser then [Header("Cookie", StoredCookie(cfg, store))] else [],
      Undefined)
  }

  /** `getCsrfToken`: a stored truthy token is a cache hit; otherwise one GET,
      whose response text is stored and returned whatever its status. */
  function GetCsrfToken(cfg: Config, store: Store, answers: seq<Answer>): (r: Step<string>)
    ensures Truthy(StoredToken(cfg, store)) ==> r == Step(store, Done(StoredToken(cfg, store).value), [], answers)
    ensures !Truthy(StoredToken(cfg, store)) ==> r.sent == [TokenRequest(cfg, store)]
    ensures !Truthy(StoredToken(cfg, store)) ==> (r.outcome.Pending? <==> answers == [])
    ensures !Truthy(StoredToken(cfg, store)) && answers != [] ==> r.rest == answers[1..]
    ensures !Truthy(StoredToken(cfg, store)) && answers != [] && answers[0].Loaded? ==>
      && r.outcome == Done(answers[0].text)
      && r.store == Put(store, TokenKey(cfg.prefix), Some(answers[0].text))
    ensures !Truthy(StoredToken(cfg, store)) && answers != [] && answers[0].NetError? ==>
      r.outcome == Failed(Transport(answers[0].cause)) && r.store == store
    ensures Frame(store, r.store, {TokenKey(cfg.prefix)})
    ensures StoredCookie(cfg, r.store) == StoredCookie(cfg, store)
  {
    var existing := StoredToken(cfg, store);
    if Truthy(existing) then
      Step(store, Done(existing.value), [], answers)
    else
      var req := TokenRequest(cfg, store);
      if |answers| == 0 then Step(store, Pending, [req], answers)
      else match answers[0]
        case NetError(e) => Step(store, Failed(Transport(e)), [req], answers[1..])
        case Loaded(_, text, _) =>
          PrefixKeysDisjoint(cfg.prefix, cfg.prefix);
          Step(Put(store, TokenKey(cfg.prefix), Some(text)), Done(text), [req], answers[1..])
  }

  /** The token is a cache: once a fetch has stored a non-empty token, a
      second call sends nothing and returns it. An empty response text is
      falsy, so it is fetched again. */
  lemma TokenCachedAfterFetch(cfg: Config, store: Store, answers: seq<Answer>)
    requires !Truthy(StoredToken(cfg, store))
    requires answers != [] && answers[0].Loaded?
    ensures var first := GetCsrfToken(cfg, store, answers);
      var second := GetCsrfToken(cfg, first.store, first.rest);
      (second.sent == [] <==> answers[0].text != "")
      && (answers[0].text != "" ==> second.outcome == Done(answers[0].text) && second.store == first.store)
  {
  }

  // ---------------------------------------------------------------------
  // systemConnect

  function ConnectRequest(cfg: Config, token: string): Request {
    Request(
      "POST",
      cfg.paths.restPath + "system/connect",
      [Header("Accept", Some(Json)),
       Header("Content-Type", Some("application/json; charset=utf-8")),
       Header("X-CSRF-Token", Some(token))],
      Undefined)
  }

  /** `systemConnect`: without a truthy token, fetch one and start over; with
      one, POST to system/connect. A 200 stores the session cookie; a 401
      clears the token and starts over, as often as the server answers 401;
      a transport error clears token and cookie; any other status fails with
      the response text. */
  function SystemConnect(cfg: Config, store: Store, answers: seq<Answer>): (r: Step<Payload>)
    ensures Frame(store, r.store, CredKeys(cfg.prefix))
    ensures |r.rest| <= |answers| && r.rest == answers[|answers| - |r.rest|..]
    ensures |r.sent| >= 1
    ensures Truthy(StoredToken(cfg, store)) ==> r.sent[0] == ConnectRequest(cfg, StoredToken(cfg, store).value)
    ensures !Truthy(StoredToken(cfg, store)) ==> r.sent[0] == TokenRequest(cfg, store)
    ensures r.outcome.Done? ==>
      && StoredCookie(cfg, r.store) == Some(SessionCookie(r.outcome.value))
      && Truthy(StoredToken(cfg, r.store))
      && r.sent[|r.sent| - 1] == ConnectRequest(cfg, StoredToken(cfg, r.store).value)
    decreases |answers|, 1
  {
    if Truthy(StoredToken(cfg, store)) then ConnectRound(cfg, store, answers)
    else FetchThenConnect(cfg, store, answers)
  }

  /** Connect without a token: fetch one, then connect from the new store. A
      failed fetch ends it with nothing more sent. */
  function FetchThenConnect(cfg: Config, store: Store, answers: seq<Answer>): (r: Step<Payload>)
    requires !Truthy(StoredToken(cfg, store))
    ensures Frame(store, r.store, CredKeys(cfg.prefix))
    ensures |r.rest| <= |answers| && r.rest == answers[|answers| - |r.rest|..]
    ensures |r.sent| >= 1 && r.sent[0] == TokenRequest(cfg, store)
    ensures r.outcome.Done? ==>
      && StoredCookie(cfg, r.store) == Some(SessionCookie(r.outcome.value))
      && Truthy(StoredToken(cfg, r.store))
      && r.sent[|r.sent| - 1] == ConnectRequest(cfg, StoredToken(cfg, r.store).value)
    decreases |answers|, 0
  {
    var g := GetCsrfToken(cfg, store, answers);
    if g.outcome.Done? then
      var c := SystemConnect(cfg, g.store, g.rest);
      FetchThenRest(cfg.prefix, store, answers, g, c);
      Step(c.store, c.outcome, g.sent + c.sent, c.rest)
    else
      Step(g.store, Relay(g.outcome), g.sent, g.rest)
  }

  /** Gluing a token fetch that read one answer to the connect run on the
      rest of the script. */
  lemma FetchThenRest(prefix: string, store: Store, answers: seq<Answer>, g: Step<string>, c: Step<Payload>)
    requires answers != [] && g.rest == answers[1..]
    requires |c.rest| <= |g.rest| && c.rest == g.rest[|g.rest| - |c.rest|..]
    requires Frame(store, g.store, {TokenKey(prefix)}) && Frame(g.store, c.store, CredKeys(prefix))
    requires |c.sent| >= 1
    ensures Frame(store, c.store, CredKeys(prefix))
    ensures |c.rest| <= |answers| && c.rest == answers[|answers| - |c.rest|..]
    ensures (g.sent + c.sent)[|g.sent + c.sent| - 1] == c.sent[|c.sent| - 1]
  {
    FrameCompose(store, g.store, c.store, {TokenKey(prefix)}, CredKeys(prefix));
    assert {TokenKey(prefix)} + CredKeys(prefix) == CredKeys(prefix);
  }

  /** The POST of connect with the stored token, and what follows its answer. */
  function ConnectRound(cfg: Config, store: Store, answers: seq<Answer>): (r: Step<Payload>)
    requires Truthy(StoredToken(cfg, store))
    ensures Frame(store, r.store, CredKeys(cfg.prefix))
    ensures |r.rest| <= |answers| && r.rest == answers[|answers| - |r.rest|..]
    ensures |r.sent| >= 1 && r.sent[0] == ConnectRequest(cfg, StoredToken(cfg, store).value)
    ensures r.outcome.Done? ==>
      && StoredCookie(cfg, r.store) == Some(SessionCookie(r.outcome.value))
      && Truthy(StoredToken(cfg, r.store))
      && r.sent[|r.sent| - 1] == ConnectRequest(cfg, StoredToken(cfg, r.store).value)
    decreases |answers|, 0
  {
    PrefixKeysDisjoint(cfg.prefix, cfg.prefix);
    var req := ConnectRequest(cfg, StoredToken(cfg, store).value);
    if |answers| == 0 then Step(store, Pending, [req], answers)
    else match answers[0]
      case NetError(e) =>
        var cleared := Put(Put(store, TokenKey(cfg.prefix), None), CookieKey(cfg.prefix), None);
        Step(cleared, Failed(Transport(e)), [req], answers[1..])
      case Loaded(status, text, data) =>
        if status == 200 then
          Step(Put(store, CookieKey(cfg.prefix), Some(SessionCookie(data))), Done(data), [req], answers[1..])
        else if status == 401 then
          var c := SystemConnect(cfg, Put(store, TokenKey(cfg.prefix), None), answers[1..]);
          assert c.rest == answers[|answers| - |c.rest|..];
          Step(c.store, c.outcome, [req] + c.sent, c.rest)
        else
          Step(store, Failed(Rejected(text)), [req], answers[1..])
  }

  /** One round of connect holding a token: a transport error fails and
      clears cookie and token; 200 stores the session cookie and returns the
      reply; any status but 200 and 401 fails with the response text and
      changes nothing. Without a token, a failed fetch fails with nothing sent
      after it. */
  lemma ConnectOutcomes(cfg: Config, store: Store, answers: seq<Answer>)
    requires answers != []
    ensures !Truthy(StoredToken(cfg, store)) && answers[0].NetError? ==>
      SystemConnect(cfg, store, answers) == Step(store, Failed(Transport(answers[0].cause)), [TokenRequest(cfg, store)], answers[1..])
    ensures Truthy(StoredToken(cfg, store)) && answers[0].NetError? ==>
      var r := SystemConnect(cfg, store, answers);
      && r.outcome == Failed(Transport(answers[0].cause))
      && CredsOf(r.store, cfg.prefix) == Creds(None, None)
      && r.sent == [ConnectRequest(cfg, StoredToken(cfg, store).value)]
    ensures Truthy(StoredToken(cfg, store)) && answers[0].Loaded? && answers[0].status == 200 ==>
      SystemConnect(cfg, store, answers)
        == Step(Put(store, CookieKey(cfg.prefix), Some(SessionCookie(answers[0].data))), Done(answers[0].data),
                [ConnectRequest(cfg, StoredToken(cfg, store).value)], answers[1..])
    ensures Truthy(StoredToken(cfg, store)) && answers[0].Loaded? && answers[0].status != 200 && answers[0].status != 401 ==>
      SystemConnect(cfg, store, answers)
        == Step(store, Failed(Rejected(answers[0].text)), [ConnectRequest(cfg, StoredToken(cfg, store).value)], answers[1..])
  {
    PrefixKeysDisjoint(cfg.prefix, cfg.prefix);
  }

  /** A 401 clears the token and runs connect again from that store, so the
      next request is a token fetch. */
  lemma Connect401Refetches(cfg: Config, store: Store, answers: seq<Answer>)
    requires Truthy(StoredToken(cfg, store))
    requires answers != [] && answers[0].Loaded? && answers[0].status == 401
    ensures var cleared := Put(store, TokenKey(cfg.prefix), None);
      var r := SystemConnect(cfg, store, answers);
      var again := SystemConnect(cfg, cleared, answers[1..]);
      && r.sent == [ConnectRequest(cfg, StoredToken(cfg, store).value)] + again.sent
      && r.sent[1] == TokenRequest(cfg, cleared)
      && r.outcome == again.outcome && r.store == again.store
  {
    PrefixKeysDisjoint(cfg.prefix, cfg.prefix);
  }

  /** `n` rounds of a server that hands out a token and then refuses it with 401. */
  function RefusingServer(n: nat, token: string, tokenData: Payload, refusal: Answer): (r: seq<Answer>)
    ensures |r| == 2 * n
  {
    if n == 0 then [] else [Loaded(200, token, tokenData), refusal] + RefusingServer(n - 1, token, tokenData, refusal)
  }

  /** Without a token, connect is a token fetch followed by connect from the
      store holding the fetched text. */
  lemma ConnectAfterFetch(cfg: Config, store: Store, answers: seq<Answer>)
    requires !Truthy(StoredToken(cfg, store))
    requires answers != [] && answers[0].Loaded?
    ensures var r := SystemConnect(cfg, store, answers);
      var c := SystemConnect(cfg, Put(store, TokenKey(cfg.prefix), Some(answers[0].text)), answers[1..]);
      && r.outcome == c.outcome && r.sent == [TokenRequest(cfg, store)] + c.sent
      && r.store == c.store && r.rest == c.rest
  {
  }

  /** The 401 retry has no bound: against a server that keeps refusing, connect
      never reaches its failure callback, whatever the number of rounds; it
      sends a token fetch and a POST per round and is still waiting at the
      end. */
  lemma {:induction false} UnboundedRetryOn401(cfg: Config, store: Store, n: nat, token: string, tokenData: Payload, refusal: Answer)
    requires !Truthy(StoredToken(cfg, store))
    requires token != ""
    requires refusal.Loaded? && refusal.status == 401
    ensures var r := SystemConnect(cfg, store, RefusingServer(n, token, tokenData, refusal));
      r.outcome == Pending && |r.sent| == 2 * n + 1
    decreases n
  {
    var script := RefusingServer(n, token, tokenData, refusal);
    if n == 0 {
      assert script == [];
    } else {
      var later := RefusingServer(n - 1, token, tokenData, refusal);
      assert script == [Loaded(200, token, tokenData), refusal] + later;
      RefusalRound(cfg, store, token, tokenData, refusal, later);
      UnboundedRetryOn401(cfg, Put(Put(store, TokenKey(cfg.prefix), Some(token)), TokenKey(cfg.prefix), None),
                          n - 1, token, tokenData, refusal);
    }
  }

  /** One round of the refusing server: a token fetch, a POST refused with
      401, and connect starts over from a store without a token. */
  lemma RefusalRound(cfg: Config, store: Store, token: string, tokenData: Payload, refusal: Answer, later: seq<Answer>)
    requires !Truthy(StoredToken(cfg, store))
    requires token != ""
    requires refusal.Loaded? && refusal.status == 401
    ensures var cleared := Put(Put(store, TokenKey(cfg.prefix), Some(token)), TokenKey(cfg.prefix), None);
      var r := SystemConnect(cfg, store, [Loaded(200, token, tokenData), refusal] + later);
      var again := SystemConnect(cfg, cleared, later);
      && !Truthy(StoredToken(cfg, cleared))
      && r.outcome == again.outcome
      && |r.sent| == 2 + |again.sent|
  {
    var script := [Loaded(200, token, tokenData), refusal] + later;
    var fetched := Put(store, TokenKey(cfg.prefix), Some(token));
    assert script[0] == Loaded(200, token, tokenData);
    assert script[1..] == [refusal] + later;
    ConnectAfterFetch(cfg, store, script);
    assert StoredToken(cfg, fetched) == Some(token);
    assert script[1..][1..] == later;
    Connect401Refetches(cfg, fetched, script[1..]);
  }

  /** From an empty store, connect sends the token fetch and then the POST
      carrying the fetched token, and ends holding the session cookie and
      that token. */
  lemma ConnectFromEmptyStore(cfg: Config, token: string, tokenData: Payload, session: Payload, text: string)
    requires token != ""
    ensures var r := SystemConnect(cfg, map[], [Loaded(200, token, tokenData), Loaded(200, text, session)]);
      && r.outcome == Done(session)
      && r.sent == [TokenRequest(cfg, map[]), ConnectRequest(cfg, token)]
      && CredsOf(r.store, cfg.prefix) == Creds(Some(SessionCookie(session)), Some(token))
  {
    PrefixKeysDisjoint(cfg.prefix, cfg.prefix);
    var answers := [Loaded(200, token, tokenData), Loaded(200, text, session)];
    var fetched := Put(map[], TokenKey(cfg.prefix), Some(token));
    assert answers[1..] == [Loaded(200, text, session)];
    ConnectAfterFetch(cfg, map[], answers);
    assert StoredToken(cfg, fetched) == Some(token);
    ConnectOutcomes(cfg, fetched, answers[1..]);
  }

  // ---------------------------------------------------------------------
  // makeRequest

  const FormType := "application/x-www-form-urlencoded"

  /** Whether makeRequest rewrites the params as a form body: the content type
      is truthy and mentions the form media type. */
  predicate FormEncoded(call: Call) {
    Truthy(call.contentType) && Contains(call.contentType.value, FormType)
  }

  /** The body makeRequest sends; None is the TypeError `Object.keys` throws
      on `null` or `undefined` params. */
  function RequestBody(call: Call, dateText: int -> string): (r: Option<JsValue>)
    ensures !FormEncoded(call) ==> r == Some(call.params)
    ensures FormEncoded(call) ==> (r.None? <==> call.params.Null? || call.params.Undefined?)
    ensures FormEncoded(call) && r.Some? ==>
      r.value.Str? && ParseQuery(r.value.s) == Some(ArgPairs(ForInEntries(call.params), dateText))
  {
    if FormEncoded(call) then
      match FormEncode(call.params, dateText)
      case None => None
      case Some(s) => Some(Str(s))
    else Some(call.params)
  }

  /** The `setRequestHeader` calls of makeRequest: Accept, the Content-Type
      when one is given, then the caller's headers in order. */
  function RequestHeaders(call: Call, headers: seq<Header>): (r: seq<Header>)
    ensures Truthy(call.contentType) ==> |r| == |headers| + 2 && r[1] == Header("Content-Type", call.contentType)
    ensures !Truthy(call.contentType) ==> |r| == |headers| + 1
    ensures r[0] == Header("Accept", Some(Json))
    ensures r[|r| - |headers|..] == headers
  {
    [Header("Accept", Some(Json))]
    + (if Truthy(call.contentType) then [Header("Content-Type", call.contentType)] else [])
    + headers
  }

  /** `makeRequest`: one request to the REST path; 200 delivers the parsed
      reply, any other status the response text, a transport error the error.
      It never touches the store. */
  function MakeRequest(host: Host, cfg: Config, store: Store, call: Call, headers: seq<Header>, answers: seq<Answer>): (r: Step<Payload>)
    ensures r.store == store
    ensures RequestBody(call, host.dateText).None? ==> r.outcome.Threw? && r.sent == [] && r.rest == answers
    ensures RequestBody(call, host.dateText).Some? ==>
      r.sent == [Request(call.httpMethod, cfg.paths.restPath + call.servicePath,
                         RequestHeaders(call, headers), RequestBody(call, host.dateText).value)]
    ensures RequestBody(call, host.dateText).Some? ==> (r.outcome.Pending? <==> answers == [])
    ensures RequestBody(call, host.dateText).Some? && answers != [] ==> r.rest == answers[1..]
    ensures r.outcome.Done? <==>
      RequestBody(call, host.dateText).Some? && answers != [] && answers[0].Loaded? && answers[0].status == 200
    ensures r.outcome.Done? ==> r.outcome.value == answers[0].data
    ensures r.outcome.Failed? && r.outcome.fault.Rejected? <==>
      RequestBody(call, host.dateText).Some? && answers != [] && answers[0].Loaded? && answers[0].status != 200
    ensures r.outcome.Failed? && r.outcome.fault.Rejected? ==> r.outcome.fault.text == answers[0].text
    ensures r.outcome.Failed? && r.outcome.fault.Transport? <==>
      RequestBody(call, host.dateText).Some? && answers != [] && answers[0].NetError?
    ensures r.outcome.Failed? && r.outcome.fault.Transport? ==> r.outcome.fault.cause == answers[0].cause
  {
    match RequestBody(call, host.dateText)
    case None => Step(store, Threw("TypeError"), [], answers)
    case Some(body) =>
      var req := Request(call.httpMethod, cfg.paths.restPath + call.servicePath, RequestHeaders(call, headers), body);
      if |answers| == 0 then Step(store, Pending, [req], answers)
      else match answers[0]
        case NetError(e) => Step(store, Failed(Transport(e)), [req], answers[1..])
        case Loaded(status, text, data) =>
          if status == 200 then Step(store, Done(data), [req], answers[1..])
          else Step(store, Failed(Rejected(text)), [req], answers[1..])
  }

  // ---------------------------------------------------------------------
  // makeAuthenticatedRequest

  /** The caller's header object after makeAuthenticatedRequest has added the
      stored cookie (unless skipped, and never in a browser) and the stored
      token (unless skipped). */
  function AuthHeaders(cfg: Config, store: Store, call: Call, caller: seq<Header>): (r: seq<Header>)
    ensures HasHeader(r, "Cookie") <==> (!call.skipCookie && cfg.env != Browser) || HasHeader(caller, "Cookie")
    ensures !call.skipCookie && cfg.env != Browser ==>
      forall h :: h in r && h.name == "Cookie" ==> h.value == StoredCookie(cfg, store)
    ensures HasHeader(r, "X-CSRF-Token") <==> !call.skipCsrfToken || HasHeader(caller, "X-CSRF-Token")
    ensures !call.skipCsrfToken ==>
      forall h :: h in r && h.name == "X-CSRF-Token" ==> h.value == StoredToken(cfg, store)
    ensures forall h: Header :: h.name != "Cookie" && h.name != "X-CSRF-Token" ==> (h in r <==> h in caller)
    ensures |r| >= |caller|
    ensures forall i :: 0 <= i < |caller| && caller[i].name != "Cookie" && caller[i].name != "X-CSRF-Token" ==> r[i] == caller[i]
  {
    var withCookie :=
      if !call.skipCookie && cfg.env != Browser then SetHeader(caller, "Cookie", StoredCookie(cfg, store)) else caller;
    if !call.skipCsrfToken then SetHeader(withCookie, "X-CSRF-Token", StoredToken(cfg, store)) else withCookie
  }

  /** makeRequest adds Accept and Content-Type in front of the given headers
      and nothing else. */
  lemma RequestHeadersHave(call: Call, hs: seq<Header>)
    ensures HasHeader(RequestHeaders(call, hs), "Content-Type") <==> Truthy(call.contentType) || HasHeader(hs, "Content-Type")
    ensures HasHeader(RequestHeaders(call, hs), "Cookie") <==> HasHeader(hs, "Cookie")
    ensures HasHeader(RequestHeaders(call, hs), "X-CSRF-Token") <==> HasHeader(hs, "X-CSRF-Token")
  {
    var front := [Header("Accept", Some(Json))] + (if Truthy(call.contentType) then [Header("Content-Type", call.contentType)] else []);
    assert RequestHeaders(call, hs) == front + hs;
    HasHeaderAppend(front, hs, "Content-Type");
    HasHeaderAppend(front, hs, "Cookie");
    HasHeaderAppend(front, hs, "X-CSRF-Token");
    if Truthy(call.contentType) { assert front[1].name == "Content-Type"; }
  }

  /** The given headers all reach the request, and the only ones makeRequest
      adds are Accept and Content-Type. */
  lemma RequestHeadersKeep(call: Call, hs: seq<Header>)
    ensures forall h :: h in hs ==> h in RequestHeaders(call, hs)
    ensures forall h :: h in RequestHeaders(call, hs) && h.name != "Accept" && h.name != "Content-Type" ==> h in hs
  {
    var front := [Header("Accept", Some(Json))] + (if Truthy(call.contentType) then [Header("Content-Type", call.contentType)] else []);
    assert RequestHeaders(call, hs) == front + hs;
  }

  /** The credential headers leave the caller's Content-Type alone. */
  lemma AuthHeadersKeepContentType(cfg: Config, store: Store, call: Call, caller: seq<Header>)
    ensures HasHeader(AuthHeaders(cfg, store, call, caller), "Content-Type") <==> HasHeader(caller, "Content-Type")
  {
    var hs := AuthHeaders(cfg, store, call, caller);
    if HasHeader(hs, "Content-Type") {
      var i :| 0 <= i < |hs| && hs[i].name == "Content-Type";
      assert hs[i] in hs;
      assert hs[i] in caller;
      var j :| 0 <= j < |caller| && caller[j] == hs[i];
    }
    if HasHeader(caller, "Content-Type") {
      var i :| 0 <= i < |caller| && caller[i].name == "Content-Type";
      assert caller[i] in caller;
      assert caller[i] in hs;
      var j :| 0 <= j < |hs| && hs[j] == caller[i];
    }
  }

  /** `makeAuthenticatedRequest`: makeRequest with the credential headers
      added; the store is only read. */
  function MakeAuthenticatedRequest(host: Host, cfg: Config, store: Store, call: Call, caller: seq<Header>, answers: seq<Answer>): (r: Step<Payload>)
    ensures r.store == store
    ensures RequestBody(call, host.dateText).None? ==> r.outcome.Threw? && r.sent == []
    ensures RequestBody(call, host.dateText).Some? ==>
      && |r.sent| == 1
      && r.sent[0].verb == call.httpMethod
      && r.sent[0].url == cfg.paths.restPath + call.servicePath
      && r.sent[0].body == RequestBody(call, host.dateText).value
      && |r.sent[0].headers| > 0 && r.sent[0].headers[0] == Header("Accept", Some(Json))
      && (HasHeader(r.sent[0].headers, "Content-Type") <==> Truthy(call.contentType) || HasHeader(caller, "Content-Type"))
      && (HasHeader(r.sent[0].headers, "Cookie") <==> (!call.skipCookie && cfg.env != Browser) || HasHeader(caller, "Cookie"))
      && (HasHeader(r.sent[0].headers, "X-CSRF-Token") <==> !call.skipCsrfToken || HasHeader(caller, "X-CSRF-Token"))
    ensures RequestBody(call, host.dateText).Some? ==>
      r.sent[0].headers == RequestHeaders(call, AuthHeaders(cfg, store, call, caller))
    ensures RequestBody(call, host.dateText).Some? && !call.skipCookie && cfg.env != Browser ==>
      forall h :: h in r.sent[0].headers && h.name == "Cookie" ==> h.value == StoredCookie(cfg, store)
    ensures RequestBody(call, host.dateText).Some? && !call.skipCsrfToken ==>
      forall h :: h in r.sent[0].headers && h.name == "X-CSRF-Token" ==> h.value == StoredToken(cfg, store)
    ensures RequestBody(call, host.dateText).Some? ==>
      forall h :: h in caller && h.name != "Cookie" && h.name != "X-CSRF-Token" ==> h in r.sent[0].headers
    ensures r.outcome.Done? <==>
      RequestBody(call, host.dateText).Some? && answers != [] && answers[0].Loaded? && answers[0].status == 200
    ensures r.outcome.Done? ==> r.outcome.value == answers[0].data
    ensures r.outcome.Failed? && r.outcome.fault.Rejected? <==>
      RequestBody(call, host.dateText).Some? && answers != [] && answers[0].Loaded? && answers[0].status != 200
    ensures r.outcome.Failed? && r.outcome.fault.Rejected? ==> r.outcome.fault.text == answers[0].text
    ensures r.outcome.Failed? && r.outcome.fault.Transport? <==>
      RequestBody(call, host.dateText).Some? && answers != [] && answers[0].NetError?
    ensures r.outcome.Failed? && r.outcome.fault.Transport? ==> r.outcome.fault.cause == answers[0].cause
  {
    var hs := AuthHeaders(cfg, store, call, caller);
    RequestHeadersHave(call, hs);
    RequestHeadersKeep(call, hs);
    AuthHeadersKeepContentType(cfg, store, call, caller);
    MakeRequest(host, cfg, store, call, hs, answers)
  }

  // ---------------------------------------------------------------------
  // login and logout

  /** The two writes of a successful login: cookie, then the reply's token. */
  function StoreSession(cfg: Config, store: Store, data: Payload): (r: Store)
    ensures CredsOf(r, cfg.prefix) == Creds(Some(SessionCookie(data)), data.token)
    ensures Frame(store, r, CredKeys(cfg.prefix))
  {
    PrefixKeysDisjoint(cfg.prefix, cfg.prefix);
    Put(Put(store, CookieKey(cfg.prefix), Some(SessionCookie(data))), TokenKey(cfg.prefix), data.token)
  }

  function LoginCall(host: Host, username: string, password: string): Call {
    Call("POST", "user/login.json", Some(Json),
         Str(host.stringify(Obj([("username", Str(username)), ("password", Str(password))]))), false, false)
  }

  /** `login`: on a 200 store the session cookie and the token of the reply
      and return the user; otherwise leave the store alone. */
  function Login(host: Host, cfg: Config, store: Store, username: string, password: string,
                 caller: seq<Header>, answers: seq<Answer>): (r: Step<JsValue>)
    ensures r.sent == MakeAuthenticatedRequest(host, cfg, store, LoginCall(host, username, password), caller, answers).sent
    ensures |r.sent| == 1 && r.sent[0].verb == "POST" && r.sent[0].url == cfg.paths.restPath + "user/login.json"
    ensures answers != [] && answers[0].Loaded? && answers[0].status == 200 ==>
      && r.outcome == Done(answers[0].data.user)
      && CredsOf(r.store, cfg.prefix) == Creds(Some(SessionCookie(answers[0].data)), answers[0].data.token)
    ensures !(answers != [] && answers[0].Loaded? && answers[0].status == 200) ==> r.store == store && !r.outcome.Done?
    ensures var m := MakeAuthenticatedRequest(host, cfg, store, LoginCall(host, username, password), caller, answers);
      !m.outcome.Done? ==> r.outcome == Relay(m.outcome)
    ensures Frame(store, r.store, CredKeys(cfg.prefix))
  {
    var call := LoginCall(host, username, password);
    ContainsLonger(Json, FormType);
    assert !FormEncoded(call);
    var m := MakeAuthenticatedRequest(host, cfg, store, call, caller, answers);
    PrefixKeysDisjoint(cfg.prefix, cfg.prefix);
    if m.outcome.Done? then
      var data := m.outcome.value;
      Step(StoreSession(cfg, store, data), Done(data.user), m.sent, m.rest)
    else
      Step(store, Relay(m.outcome), m.sent, m.rest)
  }

  const LogoutCall := Call("POST", "user/logout.json", None, Undefined, false, false)

  /** `logout`: on a 200 only the token is cleared and the cookie stays;
      otherwise the store is left alone. */
  function Logout(host: Host, cfg: Config, store: Store, caller: seq<Header>, answers: seq<Answer>): (r: Step<Payload>)
    ensures r.sent == MakeAuthenticatedRequest(host, cfg, store, LogoutCall, caller, answers).sent
    ensures |r.sent| == 1 && r.sent[0].url == cfg.paths.restPath + "user/logout.json"
    ensures answers != [] && answers[0].Loaded? && answers[0].status == 200 ==>
      && r.outcome == Done(answers[0].data)
      && CredsOf(r.store, cfg.prefix) == Creds(StoredCookie(cfg, store), None)
    ensures !(answers != [] && answers[0].Loaded? && answers[0].status == 200) ==> r.store == store && !r.outcome.Done?
    ensures var m := MakeAuthenticatedRequest(host, cfg, store, LogoutCall, caller, answers);
      !m.outcome.Done? ==> r.outcome == Relay(m.outcome)
    ensures Frame(store, r.store, {TokenKey(cfg.prefix)})
  {
    var m := MakeAuthenticatedRequest(host, cfg, store, LogoutCall, caller, answers);
    PrefixKeysDisjoint(cfg.prefix, cfg.prefix);
    if m.outcome.Done? then
      Step(Put(store, TokenKey(cfg.prefix), None), Done(m.outcome.value), m.sent, m.rest)
    else
      Step(store, Relay(m.outcome), m.sent, m.rest)
  }
}

=== FILE: field.dfy ===
/** The field shaper: building the `{und: [...]}` envelope Drupal expects for
    a field value, in its two revisions (the newer one truncates a Date to
    whole seconds, mutating it, and sends its JSON text; the older one wraps
    the Date as it is), and the older `basicField`. */
module Field {
  import opened Wrappers
  import opened JsValues

  /** `_label || "value"`: an omitted or empty label means "value". */
  function LabelKey(tag: Option<string>): (k: string)
    ensures k != ""
    ensures tag.Some? && tag.value != "" ==> k == tag.value
    ensures tag.None? || tag.value == "" ==> k == "value"
  {
    match tag
    case Some(l) => if l != "" then l else "value"
    case None => "value"
  }

  /** `{und: entries}`. */
  function Envelope(entries: seq<JsValue>): JsValue {
    Obj([("und", Arr(entries))])
  }

  /** Exactly one top-level key, `und`, holding an array. */
  predicate IsEnvelope(v: JsValue) {
    v.Obj? && |v.props| == 1 && v.props[0].0 == "und" && v.props[0].1.Arr?
  }

  function EntriesOf(v: JsValue): seq<JsValue>
    requires IsEnvelope(v)
  {
    v.props[0].1.elems
  }

  /** `{[key]: v}`. */
  function Item(key: string, v: JsValue): JsValue {
    Obj([(key, v)])
  }

  /** The JavaScript `%` operator on integers: the remainder takes the sign of
      the dividend. */
  function JsRem(a: int, d: int): (r: int)
    requires d > 0
    ensures a >= 0 ==> 0 <= r < d
    ensures a < 0 ==> -d < r <= 0
  {
    if a >= 0 then a % d else -((-a) % d)
  }

  /** `ts - (ts % 1000)`: the time value cut to a whole second, towards zero. */
  function TruncateToSecond(ts: int): (r: int)
    ensures r % 1000 == 0
    ensures ts >= 0 ==> 0 <= r <= ts < r + 1000
    ensures ts < 0 ==> r - 1000 < ts <= r <= 0
  {
    ts - JsRem(ts, 1000)
  }

  /** The truncation is the only whole second between the time value and zero
      that is less than a second away from it. */
  lemma TruncateUnique(ts: int, m: int)
    requires m % 1000 == 0
    requires ts >= 0 ==> 0 <= m <= ts < m + 1000
    requires ts < 0 ==> m - 1000 < ts <= m <= 0
    ensures m == TruncateToSecond(ts)
  {
    var r := TruncateToSecond(ts);
    assert (m - r) % 1000 == 0;
    assert -1000 < m - r < 1000;
  }

  /** A time value on a whole second is left as it is; so truncating twice is
      truncating once. */
  lemma TruncateIdempotent(ts: int)
    ensures ts % 1000 == 0 ==> TruncateToSecond(ts) == ts
    ensures TruncateToSecond(TruncateToSecond(ts)) == TruncateToSecond(ts)
  {
    if ts % 1000 == 0 {
      TruncateUnique(ts, ts);
    }
    var r := TruncateToSecond(ts);
    TruncateUnique(r, r);
  }

  /** The envelope and the argument as it stands after the call (the newer
      shaper changes a Date argument in place). */
  datatype Shaped = Shaped(field: JsValue, input: JsValue)

  predicate Scalar(v: JsValue) {
    v.Undefined? || v.Bool? || v.Num? || v.Str?
  }

  /** `structureField(value, _label)` of the newer revision. */
  function StructureField(value: JsValue, tag: Option<string>, dateJson: int -> string): (r: Shaped)
    ensures IsEnvelope(r.field)
    ensures value.Arr? ==>
      && |EntriesOf(r.field)| == |value.elems|
      && forall i :: 0 <= i < |value.elems| ==> EntriesOf(r.field)[i] == Item(LabelKey(tag), value.elems[i])
    ensures value.Date? ==>
      && r.input == Date(TruncateToSecond(value.ms))
      && EntriesOf(r.field) == [Item("value", Str(dateJson(r.input.ms)))]
    ensures !value.Date? ==> r.input == value
    ensures value.Null? || value.Obj? ==> EntriesOf(r.field) == [value]
    ensures Scalar(value) ==> EntriesOf(r.field) == [Item(LabelKey(tag), value)]
  {
    var key := LabelKey(tag);
    if IsArray(value) then
      IsArrayExactlyArrays(value);
      Shaped(Envelope(seq(|value.elems|, i requires 0 <= i < |value.elems| => Item(key, value.elems[i]))), value)
    else if value.Date? then
      IsArrayExactlyArrays(value);
      var t := TruncateToSecond(value.ms);
      Shaped(Envelope([Item("value", Str(dateJson(t)))]), Date(t))
    else if TypeOf(value) == "object" then
      IsArrayExactlyArrays(value);
      Shaped(Envelope([value]), value)
    else
      IsArrayExactlyArrays(value);
      Shaped(Envelope([Item(key, value)]), value)
  }

  /** `structureField(value, _label)` of the older revision: no truncation, no
      mutation, the Date itself under "value". */
  function StructureFieldLegacy(value: JsValue, tag: Option<string>): (r: JsValue)
    ensures IsEnvelope(r)
    ensures value.Arr? ==>
      && |EntriesOf(r)| == |value.elems|
      && forall i :: 0 <= i < |value.elems| ==> EntriesOf(r)[i] == Item(LabelKey(tag), value.elems[i])
    ensures value.Date? ==> EntriesOf(r) == [Item("value", value)]
    ensures value.Null? || value.Obj? ==> EntriesOf(r) == [value]
    ensures Scalar(value) ==> EntriesOf(r) == [Item(LabelKey(tag), value)]
  {
    var key := LabelKey(tag);
    if IsArray(value) then
      IsArrayExactlyArrays(value);
      Envelope(seq(|value.elems|, i requires 0 <= i < |value.elems| => Item(key, value.elems[i])))
    else if value.Date? then
      IsArrayExactlyArrays(value);
      Envelope([Item("value", value)])
    else if TypeOf(value) == "object" then
      IsArrayExactlyArrays(value);
      Envelope([value])
    else
      IsArrayExactlyArrays(value);
      Envelope([Item(key, value)])
  }

  /** `basicField(obj)` of the oldest module: the value as the sole entry. */
  function BasicField(obj: JsValue): (r: JsValue)
    ensures IsEnvelope(r) && EntriesOf(r) == [obj]
  {
    Envelope([obj])
  }

  /** The `typeof value == "object"` branch is reached by `null` and plain
      objects and by nothing else: arrays and Dates are taken earlier. */
  lemma ObjectBranchExactly(v: JsValue)
    ensures (!IsArray(v) && !v.Date? && TypeOf(v) == "object") <==> (v.Null? || v.Obj?)
  {
    IsArrayExactlyArrays(v);
  }

  /** The two revisions agree on every value but a Date, and the newer one
      then leaves the argument untouched. */
  lemma RevisionsAgreeOffDates(value: JsValue, tag: Option<string>, dateJson: int -> string)
    requires !value.Date?
    ensures StructureField(value, tag, dateJson).field == StructureFieldLegacy(value, tag)
    ensures StructureField(value, tag, dateJson).input == value
  {
    IsArrayExactlyArrays(value);
  }

  /** On objects and `null`, both shapers reduce to `basicField`. */
  lemma BasicFieldIsObjectBranch(value: JsValue, tag: Option<string>, dateJson: int -> string)
    requires value.Null? || value.Obj?
    ensures StructureField(value, tag, dateJson).field == BasicField(value)
    ensures StructureFieldLegacy(value, tag) == BasicField(value)
  {
    IsArrayExactlyArrays(value);
  }

  /** Shaping a Date twice gives the same field and leaves the Date where the
      first call put it. */
  lemma DateShapingIdempotent(ms: int, tag: Option<string>, dateJson: int -> string)
    ensures var once := StructureField(Date(ms), tag, dateJson);
      var twice := StructureField(once.input, tag, dateJson);
      twice.field == once.field && twice.input == once.input
  {
    TruncateIdempotent(ms);
  }

  /** The value under `key` of each one-property entry; None when an entry is
      not such an object. */
  function LabelValues(entries: seq<JsValue>, key: string): Option<seq<JsValue>> {
    if |entries| == 0 then Some([])
    else
      var e := entries[0];
      if e.Obj? && |e.props| == 1 && e.props[0].0 == key then
        match LabelValues(entries[1..], key)
        case Some(vs) => Some([e.props[0].1] + vs)
        case None => None
      else None
  }

  lemma {:induction false} LabelValuesOfItems(entries: seq<JsValue>, vs: seq<JsValue>, key: string)
    requires |entries| == |vs|
    requires forall i :: 0 <= i < |vs| ==> entries[i] == Item(key, vs[i])
    ensures LabelValues(entries, key) == Some(vs)
    decreases |vs|
  {
    if |vs| > 0 {
      LabelValuesOfItems(entries[1..], vs[1..], key);
      assert [vs[0]] + vs[1..] == vs;
    }
  }

  /** Reading the labelled values back out of the envelope gives the array's
      elements in order, or the scalar itself: nothing is lost or reordered. */
  lemma LabelledValuesRoundTrip(value: JsValue, tag: Option<string>, dateJson: int -> string)
    requires value.Arr? || Scalar(value)
    ensures var f := StructureField(value, tag, dateJson).field;
      LabelValues(EntriesOf(f), LabelKey(tag)) == Some(if value.Arr? then value.elems else [value])
    ensures var f := StructureFieldLegacy(value, tag);
      LabelValues(EntriesOf(f), LabelKey(tag)) == Some(if value.Arr? then value.elems else [value])
  {
    var f := StructureField(value, tag, dateJson).field;
    var g := StructureFieldLegacy(value, tag);
    var vs := if value.Arr? then value.elems else [value];
    LabelValuesOfItems(EntriesOf(f), vs, LabelKey(tag));
    LabelValuesOfItems(EntriesOf(g), vs, LabelKey(tag));
  }
}

=== FILE: js_value.dfy ===
/** JavaScript values as the client sees them, and the small part of the
    language's semantics the client relies on: `typeof`, the class tag used by
    `isArray`, `ToString`, and the keys a `for-in` loop or `Object.keys` visits.
    Numbers are integers; objects are ordered association lists. */
module JsValues {
  import opened Wrappers

  datatype JsValue =
    | Undefined
    | Null
    | Bool(b: bool)
    | Num(n: int)
    | Str(s: string)
    | Arr(elems: seq<JsValue>)
    | Obj(props: seq<(string, JsValue)>)
    | Date(ms: int)

  /** The behaviour of the JavaScript engine the client cannot see:
      `Date.prototype.toString`, `Date.prototype.toJSON` (both functions of the
      millisecond time value) and `JSON.stringify`. */
  datatype Host = Host(dateText: int -> string, dateJson: int -> string, stringify: JsValue -> string)

  /** The `typeof` operator. */
  function TypeOf(v: JsValue): string {
    match v
    case Undefined => "undefined"
    case Null => "object"
    case Bool(_) => "boolean"
    case Num(_) => "number"
    case Str(_) => "string"
    case Arr(_) => "object"
    case Obj(_) => "object"
    case Date(_) => "object"
  }

  /** `Object.prototype.toString.call(v)`. */
  function ClassTag(v: JsValue): string {
    match v
    case Undefined => "[object Undefined]"
    case Null => "[object Null]"
    case Bool(_) => "[object Boolean]"
    case Num(_) => "[object Number]"
    case Str(_) => "[object String]"
    case Arr(_) => "[object Array]"
    case Obj(_) => "[object Object]"
    case Date(_) => "[object Date]"
  }

  /** The `isArray` helper of both field shapers: a comparison of class tags. */
  predicate IsArray(v: JsValue) {
    ClassTag(v) == "[object Array]"
  }

  lemma IsArrayExactlyArrays(v: JsValue)
    ensures IsArray(v) <==> v.Arr?
  {
    match v
    case Arr(_) =>
    case Obj(_) => assert ClassTag(v)[8] != "[object Array]"[8];
    case Date(_) => assert ClassTag(v)[8] != "[object Array]"[8];
    case Null => assert ClassTag(v)[8] != "[object Array]"[8];
    case Undefined => assert ClassTag(v)[8] != "[object Array]"[8];
    case Bool(_) => assert ClassTag(v)[8] != "[object Array]"[8];
    case Num(_) => assert ClassTag(v)[8] != "[object Array]"[8];
    case Str(_) => assert ClassTag(v)[9] != "[object Array]"[9];
  }

  /** Digits of a natural number in base ten, most significant first. */
  function NatToString(n: nat): (r: string)
    ensures |r| > 0
    ensures forall i :: 0 <= i < |r| ==> '0' <= r[i] <= '9'
    ensures n > 0 ==> r[0] != '0'
  {
    if n < 10 then [DigitChar(n)] else NatToString(n / 10) + [DigitChar(n % 10)]
  }

  function DigitChar(d: nat): (c: char)
    requires d < 10
    ensures '0' <= c <= '9'
  {
    (48 + d) as char
  }

  /** `ToString` of an integral Number (magnitudes below 10^21, where JavaScript
      switches to exponent notation). */
  function IntToString(n: int): string {
    if n < 0 then "-" + NatToString(-n) else NatToString(n)
  }

  /** Reads back a string of decimal digits. */
  function ParseNat(s: string): nat
    requires forall i :: 0 <= i < |s| ==> '0' <= s[i] <= '9'
  {
    if |s| == 0 then 0 else 10 * ParseNat(s[..|s| - 1]) + (s[|s| - 1] as int - 48)
  }

  lemma {:induction false} ParseNatToString(n: nat)
    ensures ParseNat(NatToString(n)) == n
  {
    var r := NatToString(n);
    if n >= 10 {
      ParseNatToString(n / 10);
      assert r[..|r| - 1] == NatToString(n / 10);
    }
  }

  /** The text of an integer starts with a minus sign exactly when it is
      negative. */
  lemma MinusMeansNegative(n: int)
    ensures IntToString(n)[0] == '-' <==> n < 0
  {
    if n >= 0 {
      assert '0' <= NatToString(n)[0] <= '9';
    }
  }

  /** Distinct integers print differently. */
  lemma IntToStringInjective(m: int, n: int)
    requires IntToString(m) == IntToString(n)
    ensures m == n
  {
    MinusMeansNegative(m);
    MinusMeansNegative(n);
    NatOfText(m);
    NatOfText(n);
  }

  /** The magnitude of an integer reads back from its text without the sign. */
  lemma NatOfText(n: int)
    ensures var t := IntToString(n);
      var digits := if n < 0 then t[1..] else t;
      && (forall i :: 0 <= i < |digits| ==> '0' <= digits[i] <= '9')
      && ParseNat(digits) == if n < 0 then -n else n
  {
    if n < 0 {
      assert IntToString(n)[1..] == NatToString(-n);
      ParseNatToString(-n);
    } else {
      ParseNatToString(n);
    }
  }

  /** The abstract operation `ToString`, as `encodeURIComponent` and string
      concatenation apply it. An array prints its elements joined by commas,
      with `null` and `undefined` elements printed as nothing. */
  function ToStr(v: JsValue, dateText: int -> string): string
    decreases v
  {
    match v
    case Undefined => "undefined"
    case Null => "null"
    case Bool(b) => if b then "true" else "false"
    case Num(n) => IntToString(n)
    case Str(s) => s
    case Arr(es) =>
      JoinComma(seq(|es|, i requires 0 <= i < |es| => if es[i].Null? || es[i].Undefined? then "" else ToStr(es[i], dateText)))
    case Obj(_) => "[object Object]"
    case Date(ms) => dateText(ms)
  }

  function JoinComma(parts: seq<string>): string {
    if |parts| == 0 then ""
    else if |parts| == 1 then parts[0]
    else parts[0] + "," + JoinComma(parts[1..])
  }

  /** The own enumerable properties a `for-in` loop visits, in order: an
      object's entries, an array's or a string's indices; nothing for every
      other value, `null` and `undefined` included. */
  function ForInEntries(v: JsValue): (r: seq<(string, JsValue)>)
    ensures v.Obj? ==> r == v.props
    ensures v.Arr? ==> |r| == |v.elems| && forall i :: 0 <= i < |r| ==> r[i] == (NatToString(i), v.elems[i])
    ensures v.Str? ==> |r| == |v.s| && forall i :: 0 <= i < |r| ==> r[i] == (NatToString(i), Str([v.s[i]]))
    ensures !(v.Obj? || v.Arr? || v.Str?) ==> r == []
  {
    match v
    case Obj(ps) => ps
    case Arr(es) => seq(|es|, i requires 0 <= i < |es| => (NatToString(i), es[i]))
    case Str(s) => seq(|s|, i requires 0 <= i < |s| => (NatToString(i), Str([s[i]])))
    case _ => []
  }

  /** The keys `for-in` gives an array or a string are decimal digits that
      read back as their own index, so no two of them are equal. */
  lemma IndexKeysReadBack(v: JsValue)
    requires v.Arr? || v.Str?
    ensures var es := ForInEntries(v);
      && (forall i :: 0 <= i < |es| ==> (forall k :: 0 <= k < |es[i].0| ==> '0' <= es[i].0[k] <= '9'))
      && (forall i :: 0 <= i < |es| ==> ParseNat(es[i].0) == i)
      && (forall i, j :: 0 <= i < j < |es| ==> es[i].0 != es[j].0)
  {
    var es := ForInEntries(v);
    forall i | 0 <= i < |es|
      ensures ParseNat(es[i].0) == i
    {
      assert es[i].0 == NatToString(i);
      ParseNatToString(i);
    }
  }

  /** `Object.keys(v)` with each key's value: like `for-in`, except that
      `null` and `undefined` make it throw a TypeError (None). */
  function ObjectKeys(v: JsValue): (r: Option<seq<(string, JsValue)>>)
    ensures r.None? <==> v.Null? || v.Undefined?
    ensures r.Some? ==> r.value == ForInEntries(v)
  {
    if v.Null? || v.Undefined? then None else Some(ForInEntries(v))
  }
}

=== FILE: legacy_client.dfy ===
/** The older revision of the client (module-level functions over Titanium's
    properties, no settings prefix): `systemConnect` POSTs at once and fetches
    the token only after a 200, never retries, and `login` clears the token
    and fetches a fresh one instead of trusting the reply. */
module LegacyClient {
  import opened Wrappers
  import opened JsValues
  import opened Text
  import opened Session
  import Client

  /** The older revision stores under the bare key names. */
  const NoPrefix := ""

  function StoredCookie(store: Store): Option<string> {
    Get(store, CookieKey(NoPrefix))
  }

  function StoredToken(store: Store): Option<string> {
    Get(store, TokenKey(NoPrefix))
  }

  /** GET of the token endpoint, always carrying the stored cookie. */
  function TokenRequest(paths: Paths, store: Store): Request {
    Request("GET", paths.siteRoot + "services/session/token", [Header("Cookie", StoredCookie(store))], Undefined)
  }

  /** `getCsrfToken`: a stored truthy token is returned without a request;
      otherwise one GET whose response text is stored and returned. */
  function GetCsrfToken(paths: Paths, store: Store, answers: seq<Answer>): (r: Step<string>)
    ensures Truthy(StoredToken(store)) ==> r == Step(store, Done(StoredToken(store).value), [], answers)
    ensures !Truthy(StoredToken(store)) ==> r.sent == [TokenRequest(paths, store)]
    ensures !Truthy(StoredToken(store)) ==> (r.outcome.Pending? <==> answers == [])
    ensures !Truthy(StoredToken(store)) && answers != [] && answers[0].Loaded? ==>
      && r.outcome == Done(answers[0].text)
      && r.store == Put(store, TokenKey(NoPrefix), Some(answers[0].text))
    ensures !Truthy(StoredToken(store)) && answers != [] && answers[0].NetError? ==>
      r.outcome == Failed(Transport(answers[0].cause)) && r.store == store
    ensures |r.rest| <= |answers| && r.rest == answers[|answers| - |r.rest|..]
    ensures r.outcome.Done? ==> StoredToken(r.store) == Some(r.outcome.value)
    ensures !r.outcome.Done? ==> r.store == store
    ensures Frame(store, r.store, {TokenKey(NoPrefix)})
  {
    var existing := StoredToken(store);
    if Truthy(existing) then
      Step(store, Done(existing.value), [], answers)
    else
      var req := TokenRequest(paths, store);
      if |answers| == 0 then Step(store, Pending, [req], answers)
      else match answers[0]
        case NetError(e) => Step(store, Failed(Transport(e)), [req], answers[1..])
        case Loaded(_, text, _) => Step(Put(store, TokenKey(NoPrefix), Some(text)), Done(text), [req], answers[1..])
  }

  /** As in the current revision the token is a cache: after a fetch that
      stored a non-empty token, a second call sends nothing. */
  lemma TokenCachedAfterFetch(paths: Paths, store: Store, answers: seq<Answer>)
    requires !Truthy(StoredToken(store))
    requires answers != [] && answers[0].Loaded?
    ensures var first := GetCsrfToken(paths, store, answers);
      var second := GetCsrfToken(paths, first.store, first.rest);
      (second.sent == [] <==> answers[0].text != "")
      && (answers[0].text != "" ==> second.outcome == Done(answers[0].text) && second.store == first.store)
  {
  }

  /** A reply whose `user` is `null` or `undefined`: reading `.uid` from it
      is a TypeError. */
  predicate NoUser(data: Payload) {
    data.user.Null? || data.user.Undefined?
  }

  /** The bare POST of the older connect: no headers, no body. */
  function ConnectRequest(paths: Paths): Request {
    Request("POST", paths.restPath + "system/connect", [], Undefined)
  }

  /** `systemConnect`: POST first; on a 200 store the cookie and then make
      sure of a token; any other status, 401 included, fails with the
      response text and changes nothing; a transport error clears token and
      cookie. The debug line before the cookie is written reads
      `responseData.user.uid`, so a 200 whose `user` is `null` or `undefined`
      throws there and neither callback runs. */
  function SystemConnect(paths: Paths, store: Store, answers: seq<Answer>): (r: Step<Payload>)
    ensures |r.sent| >= 1 && r.sent[0] == ConnectRequest(paths)
    ensures answers == [] ==> r == Step(store, Pending, [ConnectRequest(paths)], [])
    ensures answers != [] && answers[0].NetError? ==>
      && r.outcome == Failed(Transport(answers[0].cause))
      && CredsOf(r.store, NoPrefix) == Creds(None, None)
      && r.sent == [ConnectRequest(paths)]
    ensures answers != [] && answers[0].Loaded? && answers[0].status != 200 ==>
      r == Step(store, Failed(Rejected(answers[0].text)), [ConnectRequest(paths)], answers[1..])
    ensures answers != [] && answers[0].Loaded? && answers[0].status == 200 && NoUser(answers[0].data) ==>
      r == Step(store, Threw("TypeError"), [ConnectRequest(paths)], answers[1..])
    ensures answers != [] && answers[0].Loaded? && answers[0].status == 200 && !NoUser(answers[0].data) ==>
      && StoredCookie(r.store) == Some(SessionCookie(answers[0].data))
      && var g := GetCsrfToken(paths, Put(store, CookieKey(NoPrefix), Some(SessionCookie(answers[0].data))), answers[1..]);
      && r.sent[1..] == g.sent
      && r.store == g.store && r.rest == g.rest
      && (g.outcome.Done? ==> r.outcome == Done(answers[0].data))
      && (!g.outcome.Done? ==> r.outcome == Relay(g.outcome))
    ensures r.outcome.Done? ==> StoredCookie(r.store) == Some(SessionCookie(r.outcome.value)) && StoredToken(r.store).Some?
    ensures Frame(store, r.store, CredKeys(NoPrefix))
  {
    PrefixKeysDisjoint(NoPrefix, NoPrefix);
    var req := ConnectRequest(paths);
    if |answers| == 0 then Step(store, Pending, [req], answers)
    else match answers[0]
      case NetError(e) =>
        var cleared := Put(Put(store, TokenKey(NoPrefix), None), CookieKey(NoPrefix), None);
        Step(cleared, Failed(Transport(e)), [req], answers[1..])
      case Loaded(status, text, data) =>
        if status == 200 && NoUser(data) then
          Step(store, Threw("TypeError"), [req], answers[1..])
        else if status == 200 then
          var withCookie := Put(store, CookieKey(NoPrefix), Some(SessionCookie(data)));
          var g := GetCsrfToken(paths, withCookie, answers[1..]);
          if g.outcome.Done? then
            Step(g.store, Done(data), [req] + g.sent, g.rest)
          else
            Step(g.store, Relay(g.outcome), [req] + g.sent, g.rest)
        else
          Step(store, Failed(Rejected(text)), [req], answers[1..])
  }

  /** No retry: a 401 is a failure like any other status. */
  lemma NoRetryOn401(paths: Paths, store: Store, answers: seq<Answer>)
    requires answers != [] && answers[0].Loaded? && answers[0].status == 401
    ensures SystemConnect(paths, store, answers)
         == Step(store, Failed(Rejected(answers[0].text)), [ConnectRequest(paths)], answers[1..])
  {
  }

  /** The setRequestHeader calls of the older makeAuthenticatedRequest: the
      stored cookie unless skipped (whatever the environment), the stored
      token unless skipped, Accept, the Content-Type when given, then the
      caller's headers. */
  function AuthHeaders(store: Store, call: Call, caller: seq<Header>): (r: seq<Header>)
    ensures var k := (if call.skipCookie then 0 else 1) + (if call.skipCsrfToken then 0 else 1);
      && |r| == k + 1 + (if Truthy(call.contentType) then 1 else 0) + |caller|
      && (!call.skipCookie ==> r[0] == Header("Cookie", StoredCookie(store)))
      && (!call.skipCsrfToken ==> r[k - 1] == Header("X-CSRF-Token", StoredToken(store)))
      && r[k] == Header("Accept", Some(Json))
      && (Truthy(call.contentType) ==> r[k + 1] == Header("Content-Type", call.contentType))
      && r[|r| - |caller|..] == caller
    ensures HasHeader(r, "Cookie") <==> !call.skipCookie || HasHeader(caller, "Cookie")
    ensures HasHeader(r, "X-CSRF-Token") <==> !call.skipCsrfToken || HasHeader(caller, "X-CSRF-Token")
  {
    var cookie := if call.skipCookie then [] else [Header("Cookie", StoredCookie(store))];
    var token := if call.skipCsrfToken then [] else [Header("X-CSRF-Token", StoredToken(store))];
    var ct := if Truthy(call.contentType) then [Header("Content-Type", call.contentType)] else [];
    var r := cookie + token + [Header("Accept", Some(Json))] + ct + caller;
    HasHeaderAppend(cookie + token + [Header("Accept", Some(Json))] + ct, caller, "Cookie");
    HasHeaderAppend(cookie + token + [Header("Accept", Some(Json))] + ct, caller, "X-CSRF-Token");
    r
  }

  /** The older `makeAuthenticatedRequest`: params are sent as they are (no
      form rewrite); 200 delivers the parsed reply, any other status the
      response text, a transport error the error. The store is only read. */
  function MakeAuthenticatedRequest(paths: Paths, store: Store, call: Call, caller: seq<Header>, answers: seq<Answer>): (r: Step<Payload>)
    ensures r.store == store
    ensures r.sent == [Request(call.httpMethod, paths.restPath + call.servicePath, AuthHeaders(store, call, caller), call.params)]
    ensures answers == [] <==> r.outcome.Pending?
    ensures answers != [] ==> r.rest == answers[1..]
    ensures r.outcome.Done? <==> answers != [] && answers[0].Loaded? && answers[0].status == 200
    ensures r.outcome.Done? ==> r.outcome.value == answers[0].data
    ensures answers != [] && answers[0].Loaded? && answers[0].status != 200 ==> r.outcome == Failed(Rejected(answers[0].text))
    ensures answers != [] && answers[0].NetError? ==> r.outcome == Failed(Transport(answers[0].cause))
  {
    var req := Request(call.httpMethod, paths.restPath + call.servicePath, AuthHeaders(store, call, caller), call.params);
    if |answers| == 0 then Step(store, Pending, [req], answers)
    else match answers[0]
      case NetError(e) => Step(store, Failed(Transport(e)), [req], answers[1..])
      case Loaded(status, text, data) =>
        if status == 200 then Step(store, Done(data), [req], answers[1..])
        else Step(store, Failed(Rejected(text)), [req], answers[1..])
  }

  function LoginCall(host: Host, username: string, password: string): Call {
    Call("POST", "user/login.json", Some(Json),
         Str(host.stringify(Obj([("username", Str(username)), ("password", Str(password))]))), false, false)
  }

  /** `login`: on a 200 store the cookie, clear the token and fetch a fresh
      one, then return the user; the stored token is then the fetched one.
      If that fetch fails the new cookie stays and there is no token. A failed
      login changes nothing. */
  function Login(host: Host, paths: Paths, store: Store, username: string, password: string,
                 caller: seq<Header>, answers: seq<Answer>): (r: Step<JsValue>)
    ensures |r.sent| >= 1 && r.sent[0] == MakeAuthenticatedRequest(paths, store, LoginCall(host, username, password), caller, answers).sent[0]
    ensures !(answers != [] && answers[0].Loaded? && answers[0].status == 200) ==> r.store == store && !r.outcome.Done?
    ensures answers != [] && answers[0].Loaded? && answers[0].status == 200 ==>
      && StoredCookie(r.store) == Some(SessionCookie(answers[0].data))
      && |r.sent| == 2 && r.sent[1].url == paths.siteRoot + "services/session/token"
      && (r.outcome.Done? <==> |answers| > 1 && answers[1].Loaded?)
      && (r.outcome.Done? ==> r.outcome.value == answers[0].data.user && StoredToken(r.store) == Some(answers[1].text))
      && (!r.outcome.Done? ==> StoredToken(r.store) == None)
      && var g := GetCsrfToken(paths, Put(Put(store, CookieKey(NoPrefix), Some(SessionCookie(answers[0].data))), TokenKey(NoPrefix), None), answers[1..]);
      && r.sent[1..] == g.sent
      && r.store == g.store && r.rest == g.rest
      && (g.outcome.Done? ==> r.outcome == Done(answers[0].data.user))
      && (!g.outcome.Done? ==> r.outcome == Relay(g.outcome))
    ensures var m := MakeAuthenticatedRequest(paths, store, LoginCall(host, username, password), caller, answers);
      !m.outcome.Done? ==> r.outcome == Relay(m.outcome)
    ensures Frame(store, r.store, CredKeys(NoPrefix))
  {
    PrefixKeysDisjoint(NoPrefix, NoPrefix);
    var m := MakeAuthenticatedRequest(paths, store, LoginCall(host, username, password), caller, answers);
    if m.outcome.Done? then
      var data := m.outcome.value;
      var renewed := Put(Put(store, CookieKey(NoPrefix), Some(SessionCookie(data))), TokenKey(NoPrefix), None);
      var g := GetCsrfToken(paths, renewed, m.rest);
      if g.outcome.Done? then
        Step(g.store, Done(data.user), m.sent + g.sent, g.rest)
      else
        Step(g.store, Relay(g.outcome), m.sent + g.sent, g.rest)
    else
      Step(store, Relay(m.outcome), m.sent, m.rest)
  }

  const LogoutCall := Call("POST", "user/logout.json", None, Undefined, false, false)

  /** `logout`: on a 200 only the token is cleared; otherwise nothing changes. */
  function Logout(paths: Paths, store: Store, caller: seq<Header>, answers: seq<Answer>): (r: Step<Payload>)
    ensures r.sent == MakeAuthenticatedRequest(paths, store, LogoutCall, caller, answers).sent
    ensures answers != [] && answers[0].Loaded? && answers[0].status == 200 ==>
      && r.outcome == Done(answers[0].data)
      && CredsOf(r.store, NoPrefix) == Creds(StoredCookie(store), None)
    ensures !(answers != [] && answers[0].Loaded? && answers[0].status == 200) ==> r.store == store && !r.outcome.Done?
    ensures var m := MakeAuthenticatedRequest(paths, store, LogoutCall, caller, answers);
      !m.outcome.Done? ==> r.outcome == Relay(m.outcome)
    ensures Frame(store, r.store, {TokenKey(NoPrefix)})
  {
    PrefixKeysDisjoint(NoPrefix, NoPrefix);
    var m := MakeAuthenticatedRequest(paths, store, LogoutCall, caller, answers);
    if m.outcome.Done? then
      Step(Put(store, TokenKey(NoPrefix), None), Done(m.outcome.value), m.sent, m.rest)
    else
      Step(store, Relay(m.outcome), m.sent, m.rest)
  }

  /** Where the two revisions part after a successful login: the current one
      keeps the token of the login reply and sends nothing more, the older one
      drops it and keeps the text of a second, token-fetching request. The
      cookie is the same in both. */
  lemma LoginRevisionsDiffer(host: Host, cfg: Config, store: Store, username: string, password: string,
                             caller: seq<Header>, reply: Payload, text: string, tokenText: string, tokenData: Payload)
    requires cfg.prefix == NoPrefix
    ensures var answers := [Loaded(200, text, reply), Loaded(200, tokenText, tokenData)];
      var current := Client.Login(host, cfg, store, username, password, caller, answers);
      var older := Login(host, cfg.paths, store, username, password, caller, answers);
      && current.outcome == older.outcome == Done(reply.user)
      && StoredCookie(current.store) == StoredCookie(older.store) == Some(SessionCookie(reply))
      && StoredToken(current.store) == reply.token
      && StoredToken(older.store) == Some(tokenText)
      && |current.sent| == 1 && |older.sent| == 2
  {
  }
}

=== FILE: query.dfy ===
/** The three string builders that turn a JavaScript object into `k=v` pairs
    joined by `&`: the Views contextual-filter serializer (keys and values
    encoded, array values repeated under their key), `encodeUrlString` (key
    verbatim, value encoded) and the form-urlencoded body rewrite of
    `makeRequest` (keys and values encoded, one pair per key). `ParseQuery` is
    the reference reading of such a string: split on `&`, split each piece at
    its first `=`, and decode both sides. */
module Query {
  import opened Wrappers
  import opened JsValues
  import opened Text
  import opened Uri

  type Pair = (string, string)

  // ---------------------------------------------------------------------
  // Reference reader

  /** One `k=v` piece, both sides decoded; None when there is no `=` or a side
      does not decode. */
  function ParsePiece(p: string): Option<Pair> {
    var k := IndexOf(p, '=');
    if k == |p| then None
    else match (DecodeUriComponent(p[..k]), DecodeUriComponent(p[k + 1..]))
      case (Some(a), Some(b)) => Some((a, b))
      case _ => None
  }

  function ParsePieces(pieces: seq<string>): Option<seq<Pair>> {
    if |pieces| == 0 then Some([])
    else match (ParsePiece(pieces[0]), ParsePieces(pieces[1..]))
      case (Some(p), Some(ps)) => Some([p] + ps)
      case _ => None
  }

  /** Reads a query string or form body back into its decoded pairs. */
  function ParseQuery(s: string): Option<seq<Pair>> {
    if s == "" then Some([]) else ParsePieces(Split(s, '&'))
  }

  lemma ParsePieceAt(a: string, b: string)
    requires '=' !in a
    ensures ParsePiece(a + "=" + b) == match (DecodeUriComponent(a), DecodeUriComponent(b))
      case (Some(x), Some(y)) => Some((x, y))
      case _ => None
  {
    IndexOfJoined(a, '=', b);
    var p := a + "=" + b;
    assert p[..|a|] == a;
    assert p[|a| + 1..] == b;
  }

  lemma {:induction false} ParsePiecesEach(pieces: seq<string>, ps: seq<Pair>)
    requires |pieces| == |ps|
    requires forall i :: 0 <= i < |pieces| ==> ParsePiece(pieces[i]) == Some(ps[i])
    ensures ParsePieces(pieces) == Some(ps)
    decreases |pieces|
  {
    if |pieces| > 0 {
      ParsePiecesEach(pieces[1..], ps[1..]);
      assert [ps[0]] + ps[1..] == ps;
    }
  }

  /** A string joined from pieces that each read as one pair reads back as
      exactly those pairs, in order. */
  lemma ParseJoined(pieces: seq<string>, ps: seq<Pair>)
    requires |pieces| == |ps|
    requires forall i :: 0 <= i < |pieces| ==> '&' !in pieces[i] && ParsePiece(pieces[i]) == Some(ps[i])
    ensures ParseQuery(Join(pieces, '&')) == Some(ps)
  {
    if |pieces| == 0 {
    } else {
      assert ParsePiece(pieces[0]).Some?;
      assert pieces[0] != "";
      SplitJoin(pieces, '&');
      ParsePiecesEach(pieces, ps);
    }
  }

  // ---------------------------------------------------------------------
  // serializeDrupalViewsFilter

  /** `encodeURIComponent(k) + "=" + encodeURIComponent(v)`. */
  function EncodePair(p: Pair): string {
    EncodeUriComponent(p.0) + "=" + EncodeUriComponent(p.1)
  }

  function EncodePairs(ps: seq<Pair>): (r: seq<string>)
    ensures |r| == |ps|
    ensures forall i :: 0 <= i < |ps| ==> r[i] == EncodePair(ps[i])
  {
    if |ps| == 0 then [] else [EncodePair(ps[0])] + EncodePairs(ps[1..])
  }

  lemma EncodedPieces(ps: seq<Pair>)
    ensures forall i :: 0 <= i < |ps| ==> '&' !in EncodePairs(ps)[i] && ParsePiece(EncodePairs(ps)[i]) == Some(ps[i])
  {
    forall i | 0 <= i < |ps|
      ensures '&' !in EncodePairs(ps)[i] && ParsePiece(EncodePairs(ps)[i]) == Some(ps[i])
    {
      EncodedHasNoDelimiters(ps[i].0);
      EncodedHasNoDelimiters(ps[i].1);
      ParsePieceAt(EncodeUriComponent(ps[i].0), EncodeUriComponent(ps[i].1));
      DecodeEncode(ps[i].0);
      DecodeEncode(ps[i].1);
    }
  }

  /** How many pairs one entry contributes: its array length, or one. */
  function Width(v: JsValue): nat {
    if v.Arr? then |v.elems| else 1
  }

  function TotalWidth(entries: seq<(string, JsValue)>): nat {
    if |entries| == 0 then 0 else Width(entries[0].1) + TotalWidth(entries[1..])
  }

  /** The pairs one entry contributes: one per array element under the same
      key, or the value itself. */
  function EntryPairs(e: (string, JsValue), dateText: int -> string): (r: seq<Pair>)
    ensures |r| == Width(e.1)
    ensures forall i :: 0 <= i < |r| ==> r[i].0 == e.0
    ensures e.1.Arr? ==> forall i :: 0 <= i < |r| ==> r[i].1 == ToStr(e.1.elems[i], dateText)
    ensures !e.1.Arr? ==> r == [(e.0, ToStr(e.1, dateText))]
  {
    match e.1
    case Arr(es) => seq(|es|, i requires 0 <= i < |es| => (e.0, ToStr(es[i], dateText)))
    case _ => [(e.0, ToStr(e.1, dateText))]
  }

  /** The decoded pairs the serializer emits, entry by entry in order. */
  function FilterPairs(entries: seq<(string, JsValue)>, dateText: int -> string): (r: seq<Pair>)
    ensures |r| == TotalWidth(entries)
  {
    if |entries| == 0 then [] else EntryPairs(entries[0], dateText) + FilterPairs(entries[1..], dateText)
  }

  /** Entries keep their order: the pairs of a concatenation are the
      concatenation of the pairs. */
  lemma {:induction false} FilterPairsAppend(a: seq<(string, JsValue)>, b: seq<(string, JsValue)>, dateText: int -> string)
    ensures FilterPairs(a + b, dateText) == FilterPairs(a, dateText) + FilterPairs(b, dateText)
    decreases |a|
  {
    if |a| == 0 {
      assert a + b == b;
    } else {
      assert (a + b)[1..] == a[1..] + b;
      FilterPairsAppend(a[1..], b, dateText);
    }
  }

  /** `serializeDrupalViewsFilter(obj)`: one encoded `key=element` pair per
      element of an array value, one per other value, in key order. */
  function SerializeDrupalViewsFilter(obj: JsValue, dateText: int -> string): (r: string)
    ensures ParseQuery(r) == Some(FilterPairs(ForInEntries(obj), dateText))
    ensures r == "" <==> TotalWidth(ForInEntries(obj)) == 0
  {
    var ps := FilterPairs(ForInEntries(obj), dateText);
    EncodedPieces(ps);
    ParseJoined(EncodePairs(ps), ps);
    assert |ps| > 0 ==> |EncodePairs(ps)[0]| > 0;
    Join(EncodePairs(ps), '&')
  }

  /** `k=v` without any encoding, the text `decodeURIComponent` gives back. */
  function RawPair(p: Pair): string {
    p.0 + "=" + p.1
  }

  function RawPairs(ps: seq<Pair>): (r: seq<string>)
    ensures |r| == |ps|
    ensures forall i :: 0 <= i < |ps| ==> r[i] == RawPair(ps[i])
  {
    if |ps| == 0 then [] else [RawPair(ps[0])] + RawPairs(ps[1..])
  }

  lemma DecodePair(p: Pair, rest: string)
    ensures DecodeUriComponent(EncodePair(p) + rest) == Prepend(RawPair(p), DecodeUriComponent(rest))
  {
    var ev := EncodeUriComponent(p.1);
    assert EncodePair(p) + rest == EncodeUriComponent(p.0) + ['='] + (ev + rest);
    DecodeAfterLiteral(p.0, '=', ev + rest);
    DecodeEncodedPrefix(p.1, rest);
    PrependTwice(p.0 + ['='], p.1, DecodeUriComponent(rest));
  }

  /** Decoding a whole serialized string gives the unencoded pairs joined the
      same way. */
  lemma {:induction false} DecodeSerialized(ps: seq<Pair>)
    ensures DecodeUriComponent(Join(EncodePairs(ps), '&')) == Some(Join(RawPairs(ps), '&'))
    decreases |ps|
  {
    if |ps| == 1 {
      assert Join(EncodePairs(ps), '&') == EncodePair(ps[0]) + "";
      DecodePair(ps[0], "");
      assert RawPair(ps[0]) + "" == Join(RawPairs(ps), '&');
    } else if |ps| > 1 {
      var tail := Join(EncodePairs(ps[1..]), '&');
      assert EncodePairs(ps)[1..] == EncodePairs(ps[1..]);
      assert RawPairs(ps)[1..] == RawPairs(ps[1..]);
      assert Join(EncodePairs(ps), '&') == EncodePair(ps[0]) + ("&" + tail);
      DecodePair(ps[0], "&" + tail);
      DecodeLiteral('&', tail);
      DecodeSerialized(ps[1..]);
      PrependTwice(RawPair(ps[0]), "&", DecodeUriComponent(tail));
      assert Join(RawPairs(ps), '&') == RawPair(ps[0]) + "&" + Join(RawPairs(ps[1..]), '&');
    }
  }

  lemma SmallNumbers()
    ensures IntToString(1) == "1" && IntToString(2) == "2" && IntToString(3) == "3"
  {
    assert NatToString(1) == [DigitChar(1)];
  }

  lemma TestVectorPairs(dateText: int -> string)
    ensures FilterPairs(ForInEntries(Obj([("arg[]", Arr([Num(1), Num(2), Num(3)]))])), dateText)
         == [("arg[]", "1"), ("arg[]", "2"), ("arg[]", "3")]
  {
    var entries := ForInEntries(Obj([("arg[]", Arr([Num(1), Num(2), Num(3)]))]));
    assert entries == [("arg[]", Arr([Num(1), Num(2), Num(3)]))];
    SmallNumbers();
    assert FilterPairs(entries[1..], dateText) == [];
    var e := EntryPairs(entries[0], dateText);
    assert |e| == 3;
    assert e[0] == ("arg[]", "1") && e[1] == ("arg[]", "2") && e[2] == ("arg[]", "3");
  }

  lemma TestVectorText()
    ensures Join(RawPairs([("arg[]", "1"), ("arg[]", "2"), ("arg[]", "3")]), '&') == "arg[]=1&arg[]=2&arg[]=3"
  {
    var ps := [("arg[]", "1"), ("arg[]", "2"), ("arg[]", "3")];
    var raw := RawPairs(ps);
    assert raw[0] == "arg[]=1" && raw[1] == "arg[]=2" && raw[2] == "arg[]=3";
    assert raw == ["arg[]=1", "arg[]=2", "arg[]=3"];
    JoinThree("arg[]=1", "arg[]=2", "arg[]=3", '&');
    TestVectorLiteral();
  }

  lemma TestVectorLiteral()
    ensures "arg[]=1" + ['&'] + "arg[]=2" + ['&'] + "arg[]=3" == "arg[]=1&arg[]=2&arg[]=3"
  {
  }

  /** The repository's own test: `{'arg[]': [1, 2, 3]}` serializes to a string
      that decodes to `arg[]=1&arg[]=2&arg[]=3`. */
  lemma FilterTestVector(dateText: int -> string)
    ensures DecodeUriComponent(SerializeDrupalViewsFilter(Obj([("arg[]", Arr([Num(1), Num(2), Num(3)]))]), dateText))
         == Some("arg[]=1&arg[]=2&arg[]=3")
  {
    var obj := Obj([("arg[]", Arr([Num(1), Num(2), Num(3)]))]);
    var ps := FilterPairs(ForInEntries(obj), dateText);
    TestVectorPairs(dateText);
    assert SerializeDrupalViewsFilter(obj, dateText) == Join(EncodePairs(ps), '&');
    DecodeSerialized(ps);
    TestVectorText();
  }

  // ---------------------------------------------------------------------
  // encodeUrlString

  /** A key that reads back as itself: `encodeUrlString` does not encode
      keys, so only keys without `&`, `=` or `%` survive. */
  predicate PlainKey(k: string) {
    '&' !in k && '=' !in k && '%' !in k
  }

  function UrlPiece(e: (string, JsValue), dateText: int -> string): string {
    e.0 + "=" + EncodeUriComponent(ToStr(e.1, dateText))
  }

  /** The pairs a reader should get back from `encodeUrlString(args)`. */
  function ArgPairs(entries: seq<(string, JsValue)>, dateText: int -> string): (r: seq<Pair>)
    ensures |r| == |entries|
    ensures forall i :: 0 <= i < |r| ==> r[i] == (entries[i].0, ToStr(entries[i].1, dateText))
  {
    seq(|entries|, i requires 0 <= i < |entries| => (entries[i].0, ToStr(entries[i].1, dateText)))
  }

  function UrlPieces(es: seq<(string, JsValue)>, dateText: int -> string): (r: seq<string>)
    ensures |r| == |es|
    ensures forall i :: 0 <= i < |es| ==> r[i] == UrlPiece(es[i], dateText)
  {
    seq(|es|, i requires 0 <= i < |es| => UrlPiece(es[i], dateText))
  }

  lemma UrlPiecesParse(es: seq<(string, JsValue)>, dateText: int -> string)
    requires forall i :: 0 <= i < |es| ==> PlainKey(es[i].0)
    ensures ParseQuery(Join(UrlPieces(es, dateText), '&')) == Some(ArgPairs(es, dateText))
  {
    var pieces := UrlPieces(es, dateText);
    var ps := ArgPairs(es, dateText);
    forall i | 0 <= i < |es|
      ensures '&' !in pieces[i] && ParsePiece(pieces[i]) == Some(ps[i])
    {
      var v := ToStr(es[i].1, dateText);
      EncodedHasNoDelimiters(v);
      ParsePieceAt(es[i].0, EncodeUriComponent(v));
      DecodePlain(es[i].0);
      DecodeEncode(v);
    }
    ParseJoined(pieces, ps);
  }

  /** `encodeUrlString(args)`: one `key=value` piece per key with only the
      value encoded; `null`, `undefined` and empty objects give "". */
  function EncodeUrlString(args: JsValue, dateText: int -> string): (r: string)
    ensures r == "" <==> |ForInEntries(args)| == 0
    ensures (forall i :: 0 <= i < |ForInEntries(args)| ==> PlainKey(ForInEntries(args)[i].0))
      ==> ParseQuery(r) == Some(ArgPairs(ForInEntries(args), dateText))
  {
    var es := ForInEntries(args);
    var pieces := UrlPieces(es, dateText);
    assert |es| > 0 ==> |pieces[0]| > 0;
    assert (forall i :: 0 <= i < |es| ==> PlainKey(es[i].0))
      ==> ParseQuery(Join(pieces, '&')) == Some(ArgPairs(es, dateText)) by {
      if forall i :: 0 <= i < |es| ==> PlainKey(es[i].0) {
        UrlPiecesParse(es, dateText);
      }
    }
    Join(pieces, '&')
  }

  /** Keys are sent verbatim: a key holding `&` breaks the query apart. */
  lemma UrlKeyNotEncoded(dateText: int -> string)
    ensures EncodeUrlString(Obj([("a&b", Str("c"))]), dateText) == "a&b=c"
    ensures ParseQuery(EncodeUrlString(Obj([("a&b", Str("c"))]), dateText)) == None
  {
    var r := EncodeUrlString(Obj([("a&b", Str("c"))]), dateText);
    assert EncodeUriComponent("c") == "c";
    assert r == "a&b=c";
    assert Join(["a", "b=c"], '&') == "a&b=c";
    SplitJoin(["a", "b=c"], '&');
    assert IndexOf("a", '=') == 1;
  }

  // ---------------------------------------------------------------------
  // Form-urlencoded body of makeRequest

  /** `Object.keys(params).map(k => enc(k) + '=' + enc(params[k])).join('&')`;
      None is the TypeError `Object.keys` throws for `null` and `undefined`. */
  function FormEncode(params: JsValue, dateText: int -> string): (r: Option<string>)
    ensures r.None? <==> params.Null? || params.Undefined?
    ensures r.Some? ==> ParseQuery(r.value) == Some(ArgPairs(ForInEntries(params), dateText))
  {
    match ObjectKeys(params)
    case None => None
    case Some(es) =>
      var ps := ArgPairs(es, dateText);
      EncodedPieces(ps);
      ParseJoined(EncodePairs(ps), ps);
      Some(Join(EncodePairs(ps), '&'))
  }

  /** On objects whose values are not arrays, the form body and the filter
      serializer produce the same text. */
  lemma FormMatchesFilterWithoutArrays(params: JsValue, dateText: int -> string)
    requires params.Obj?
    requires forall i :: 0 <= i < |params.props| ==> !params.props[i].1.Arr?
    ensures FormEncode(params, dateText) == Some(SerializeDrupalViewsFilter(params, dateText))
  {
    FilterPairsScalars(params.props, dateText);
  }

  lemma {:induction false} FilterPairsScalars(entries: seq<(string, JsValue)>, dateText: int -> string)
    requires forall i :: 0 <= i < |entries| ==> !entries[i].1.Arr?
    ensures FilterPairs(entries, dateText) == ArgPairs(entries, dateText)
    decreases |entries|
  {
    if |entries| > 0 {
      FilterPairsScalars(entries[1..], dateText);
    }
  }
}

=== FILE: resources.dfy ===
/** The convenience wrappers of both revisions: each builds one call for
    makeAuthenticatedRequest. Calls are values here, so what a wrapper sends
    is this call run through the client of its revision. */
module Resources {
  import opened Wrappers
  import opened JsValues
  import opened Text
  import opened Uri
  import opened Query
  import opened Session
  import Client
  import LegacyClient

  /** What the server reads after the first `?` of a service path; no `?`
      means an empty query. */
  function QueryOf(path: string): (q: string)
    ensures |q| <= |path|
    ensures '?' in path ==> path == path[..IndexOf(path, '?')] + "?" + q
    ensures '?' !in path ==> q == ""
  {
    var k := IndexOf(path, '?');
    if k < |path| then path[k + 1..] else ""
  }

  /** The resource part of a service path: everything before the first `?`. */
  function ResourceOf(path: string): (p: string)
    ensures '?' !in p
    ensures IsPrefix(p, path)
  {
    path[..IndexOf(path, '?')]
  }

  /** `resource + "?" + query`. */
  function WithQuery(resource: string, query: string): string {
    resource + "?" + query
  }

  /** Reading back `resource + "?" + query` when the resource has no `?`. */
  lemma SplitAtQuery(resource: string, query: string)
    requires '?' !in resource
    ensures ResourceOf(resource + "?" + query) == resource
    ensures QueryOf(resource + "?" + query) == query
  {
    IndexOfJoined(resource, '?', query);
  }

  /** `getView`: GET of `views/<name>.json?<args>` with a JSON content type. */
  function ViewCall(name: string, args: JsValue, dateText: int -> string): (r: Call)
    ensures r.httpMethod == "GET" && r.contentType == Some(Json) && r.params == Undefined
    ensures !r.skipCookie && !r.skipCsrfToken
  {
    Call("GET", WithQuery("views/" + name + ".json", EncodeUrlString(args, dateText)), Some(Json), Undefined, false, false)
  }

  /** The view name and the arguments can be read back from the path when
      the name has no `?` and no key needs escaping. */
  lemma ViewPathRoundTrip(name: string, args: JsValue, dateText: int -> string)
    requires '?' !in name
    requires forall i :: 0 <= i < |ForInEntries(args)| ==> PlainKey(ForInEntries(args)[i].0)
    ensures var path := ViewCall(name, args, dateText).servicePath;
      && ResourceOf(path) == "views/" + name + ".json"
      && ParseQuery(QueryOf(path)) == Some(ArgPairs(ForInEntries(args), dateText))
  {
    var res := "views/" + name + ".json";
    assert '?' !in "views/" && '?' !in ".json";
    var q := EncodeUrlString(args, dateText);
    ArgsRoundTrip(res, args, dateText);
  }

  /** A resource without `?` and the encoded arguments of plain keys come
      back apart. */
  lemma ArgsRoundTrip(res: string, args: JsValue, dateText: int -> string)
    requires '?' !in res
    requires forall i :: 0 <= i < |ForInEntries(args)| ==> PlainKey(ForInEntries(args)[i].0)
    ensures var path := WithQuery(res, EncodeUrlString(args, dateText));
      && ResourceOf(path) == res
      && ParseQuery(QueryOf(path)) == Some(ArgPairs(ForInEntries(args), dateText))
  {
    SplitAtQuery(res, EncodeUrlString(args, dateText));
  }

  /** `getResource`: GET of `<name>.json?<args>` with no content type. */
  function ResourceCall(name: string, args: JsValue, dateText: int -> string): (r: Call)
    ensures r.httpMethod == "GET" && r.contentType == None && r.params == Undefined
    ensures !r.skipCookie && !r.skipCsrfToken
  {
    Call("GET", WithQuery(name + ".json", EncodeUrlString(args, dateText)), None, Undefined, false, false)
  }

  lemma ResourcePathRoundTrip(name: string, args: JsValue, dateText: int -> string)
    requires '?' !in name
    requires forall i :: 0 <= i < |ForInEntries(args)| ==> PlainKey(ForInEntries(args)[i].0)
    ensures var path := ResourceCall(name, args, dateText).servicePath;
      && ResourceOf(path) == name + ".json"
      && ParseQuery(QueryOf(path)) == Some(ArgPairs(ForInEntries(args), dateText))
  {
    var res := name + ".json";
    assert '?' !in ".json";
    var q := EncodeUrlString(args, dateText);
    ArgsRoundTrip(res, args, dateText);
  }

  /** `postResource`: POST of the JSON text of the object, no content type. */
  function PostCall(host: Host, name: string, obj: JsValue): (r: Call)
    ensures r.httpMethod == "POST" && r.servicePath == name + ".json" && r.contentType == None
    ensures r.params == Str(host.stringify(obj))
  {
    Call("POST", name + ".json", None, Str(host.stringify(obj)), false, false)
  }

  /** `putResource`: PUT of the JSON text of the object as application/json. */
  function PutCall(host: Host, name: string, obj: JsValue): (r: Call)
    ensures r.httpMethod == "PUT" && r.servicePath == name + ".json" && r.contentType == Some(Json)
    ensures r.params == Str(host.stringify(obj))
  {
    Call("PUT", name + ".json", Some(Json), Str(host.stringify(obj)), false, false)
  }

  /** `deleteResource`: DELETE of `<name>/<rid>.json`; `rid` is concatenated
      with JavaScript's `+`, so any value is turned into its string. */
  function DeleteCall(name: string, rid: JsValue, dateText: int -> string): (r: Call)
    ensures r.httpMethod == "DELETE" && r.contentType == None && r.params == Undefined
  {
    Call("DELETE", name + "/" + ToStr(rid, dateText) + ".json", None, Undefined, false, false)
  }

  /** The resource name and the id are the two segments of the path when
      neither holds a `/`. */
  lemma DeletePathSegments(name: string, rid: JsValue, dateText: int -> string)
    requires '/' !in name && '/' !in ToStr(rid, dateText)
    ensures Split(DeleteCall(name, rid, dateText).servicePath, '/') == [name, ToStr(rid, dateText) + ".json"]
  {
    var id := ToStr(rid, dateText) + ".json";
    assert '/' !in ".json";
    JoinTwo(name, id, '/');
    assert DeleteCall(name, rid, dateText).servicePath == Join([name, id], '/');
    SplitJoin([name, id], '/');
  }

  /** `createNode` of the current revision: the node wrapped as `{node: …}`,
      posted as application/json. */
  function NodeCall(host: Host, node: JsValue): (r: Call)
    ensures r.httpMethod == "POST" && r.servicePath == "node" && r.contentType == Some(Json)
    ensures r.params == Str(host.stringify(Obj([("node", node)])))
  {
    Call("POST", "node", Some(Json), Str(host.stringify(Obj([("node", node)]))), false, false)
  }

  /** `createNode` of the older revision: the same body with no content type. */
  function LegacyNodeCall(host: Host, node: JsValue): (r: Call)
    ensures r == NodeCall(host, node).(contentType := None)
  {
    Call("POST", "node", None, Str(host.stringify(Obj([("node", node)]))), false, false)
  }

  /** `createAccount`: POST of the JSON text of the user to user/register.json. */
  function AccountCall(host: Host, user: JsValue): (r: Call)
    ensures r.httpMethod == "POST" && r.servicePath == "user/register.json" && r.contentType == Some(Json)
    ensures r.params == Str(host.stringify(user))
  {
    Call("POST", "user/register.json", Some(Json), Str(host.stringify(user)), false, false)
  }

  /** `resetPassword` (current revision only): POST with no body to
      `user/<uid>/password_reset.json`, the three segments joined by `/`. */
  function ResetPasswordCall(uid: JsValue, dateText: int -> string): (r: Call)
    ensures r.httpMethod == "POST" && r.contentType == Some(Json) && r.params == Undefined
  {
    Call("POST", Join(["user", ToStr(uid, dateText), "password_reset.json"], '/'), Some(Json), Undefined, false, false)
  }

  /** The uid is the middle one of three path segments when it holds no `/`. */
  lemma ResetPathSegments(uid: JsValue, dateText: int -> string)
    requires '/' !in ToStr(uid, dateText)
    ensures Split(ResetPasswordCall(uid, dateText).servicePath, '/') == ["user", ToStr(uid, dateText), "password_reset.json"]
  {
    assert '/' !in "user" && '/' !in "password_reset.json";
    SplitJoin(["user", ToStr(uid, dateText), "password_reset.json"], '/');
  }

  const UploadType := "application/x-www-form-urlencoded; charset=utf-8"

  /** The file description of `uploadFile`; the size is sent as `"" + filesize`. */
  function FileDescription(data: JsValue, filename: JsValue, filesize: JsValue, dateText: int -> string): (r: JsValue)
    ensures r.Obj? && |r.props| == 3
    ensures r.props[2] == ("filesize", Str(ToStr(filesize, dateText)))
  {
    Obj([("file", data), ("filename", filename), ("filesize", Str(ToStr(filesize, dateText)))])
  }

  /** `uploadFile`: POST of the file description to file.json as a form. */
  function UploadCall(data: JsValue, filename: JsValue, filesize: JsValue, dateText: int -> string): (r: Call)
    ensures r.httpMethod == "POST" && r.servicePath == "file.json"
  {
    Call("POST", "file.json", Some(UploadType), FileDescription(data, filename, filesize, dateText), false, false)
  }

  /** The upload's content type names the form media type, so the current
      client rewrites its params. */
  lemma UploadIsForm(data: JsValue, filename: JsValue, filesize: JsValue, dateText: int -> string)
    ensures Client.FormEncoded(UploadCall(data, filename, filesize, dateText))
  {
    assert UploadType[..|Client.FormType|] == Client.FormType;
    ContainsAt(UploadType, Client.FormType, 0);
  }

  /** The current client sends the upload as a form body that decodes to the
      three fields, each as its JavaScript string. */
  lemma UploadBodyDecodes(data: JsValue, filename: JsValue, filesize: JsValue, dateText: int -> string)
    ensures var body := Client.RequestBody(UploadCall(data, filename, filesize, dateText), dateText);
      && body.Some? && body.value.Str?
      && ParseQuery(body.value.s) == Some([("file", ToStr(data, dateText)),
                                           ("filename", ToStr(filename, dateText)),
                                           ("filesize", ToStr(filesize, dateText))])
  {
    var call := UploadCall(data, filename, filesize, dateText);
    UploadIsForm(data, filename, filesize, dateText);
    FormBodyOfObject(call, dateText);
    ArgPairsOfDescription(data, filename, filesize, dateText);
  }

  lemma FormBodyOfObject(call: Call, dateText: int -> string)
    requires Client.FormEncoded(call) && call.params.Obj?
    ensures var body := Client.RequestBody(call, dateText);
      body.Some? && body.value.Str? && ParseQuery(body.value.s) == Some(ArgPairs(call.params.props, dateText))
  {
  }

  lemma ArgPairsOfDescription(data: JsValue, filename: JsValue, filesize: JsValue, dateText: int -> string)
    ensures ArgPairs(FileDescription(data, filename, filesize, dateText).props, dateText)
         == [("file", ToStr(data, dateText)), ("filename", ToStr(filename, dateText)), ("filesize", ToStr(filesize, dateText))]
  {
    var ps := ArgPairs(FileDescription(data, filename, filesize, dateText).props, dateText);
    assert ps[2] == ("filesize", ToStr(Str(ToStr(filesize, dateText)), dateText));
  }

  /** The older client puts the description object on the wire unchanged and
      leaves the form encoding to the platform. */
  lemma LegacyUploadSendsObject(paths: Paths, store: Store, data: JsValue, filename: JsValue, filesize: JsValue,
                                dateText: int -> string, caller: seq<Header>, answers: seq<Answer>)
    ensures var call := UploadCall(data, filename, filesize, dateText);
      LegacyClient.MakeAuthenticatedRequest(paths, store, call, caller, answers).sent[0].body
        == FileDescription(data, filename, filesize, dateText)
  {
  }

  /** None of the other wrappers names the form media type, so the current
      client sends their params as they are: the JSON text where there is a
      body, nothing where there is none. */
  lemma OtherBodiesSentVerbatim(host: Host, name: string, obj: JsValue, args: JsValue, id: JsValue)
    ensures Client.RequestBody(ViewCall(name, args, host.dateText), host.dateText) == Some(Undefined)
    ensures Client.RequestBody(ResourceCall(name, args, host.dateText), host.dateText) == Some(Undefined)
    ensures Client.RequestBody(PostCall(host, name, obj), host.dateText) == Some(Str(host.stringify(obj)))
    ensures Client.RequestBody(PutCall(host, name, obj), host.dateText) == Some(Str(host.stringify(obj)))
    ensures Client.RequestBody(DeleteCall(name, id, host.dateText), host.dateText) == Some(Undefined)
    ensures Client.RequestBody(NodeCall(host, obj), host.dateText) == Some(Str(host.stringify(Obj([("node", obj)]))))
    ensures Client.RequestBody(AccountCall(host, obj), host.dateText) == Some(Str(host.stringify(obj)))
    ensures Client.RequestBody(ResetPasswordCall(id, host.dateText), host.dateText) == Some(Undefined)
  {
    ContainsLonger(Json, Client.FormType);
  }
}

=== FILE: session.dfy ===
/** What both revisions of the client share: the credential store, the
    request and answer records of the transport, the outcome of an operation,
    and the paths set by `setRestPath`.

    The transport is a script of answers: every request an operation sends
    consumes the next answer, and an operation whose script runs out is left
    Pending (its callback never fires). An operation is a pure function from
    the store and the script to a `Step`: the new store, the outcome, the
    requests sent in order, and the answers left unread. */
module Session {
  import opened Wrappers
  import opened JsValues
  import opened Text

  /** Persistent settings: `setString(k, null)` removes `k`. */
  type Store = map<string, string>

  function Get(store: Store, key: string): Option<string> {
    if key in store then Some(store[key]) else None
  }

  /** `setString(key, v)`, where None stands for `null` or `undefined`. */
  function Put(store: Store, key: string, v: Option<string>): (r: Store)
    ensures Get(r, key) == v
    ensures forall k :: k != key ==> Get(r, k) == Get(store, k)
  {
    match v
    case Some(s) => store[key := s]
    case None => store - {key}
  }

  function CookieKey(prefix: string): string {
    prefix + "Drupal-Cookie"
  }

  function TokenKey(prefix: string): string {
    prefix + "X-CSRF-Token"
  }

  /** The two keys one client instance owns. */
  function CredKeys(prefix: string): set<string> {
    {CookieKey(prefix), TokenKey(prefix)}
  }

  datatype Creds = Creds(cookie: Option<string>, token: Option<string>)

  function CredsOf(store: Store, prefix: string): Creds {
    Creds(Get(store, CookieKey(prefix)), Get(store, TokenKey(prefix)))
  }

  /** JavaScript truthiness of a stored string: present and not empty. */
  predicate Truthy(o: Option<string>) {
    o.Some? && o.value != ""
  }

  /** Every key outside `keys` reads the same in both stores. */
  ghost predicate Frame(a: Store, b: Store, keys: set<string>) {
    forall k :: k !in keys ==> Get(a, k) == Get(b, k)
  }

  /** Two changes confined to two key sets are together confined to their
      union. */
  lemma FrameCompose(a: Store, b: Store, c: Store, k1: set<string>, k2: set<string>)
    requires Frame(a, b, k1) && Frame(b, c, k2)
    ensures Frame(a, c, k1 + k2)
  {
  }

  /** Different prefixes own different keys, and a cookie key is never a token
      key. */
  lemma CookieKeyNotTokenKey(p: string, q: string)
    ensures CookieKey(p) != TokenKey(q)
  {
    var c := CookieKey(p);
    var t := TokenKey(q);
    assert c[|c| - 1] == 'e';
    assert t[|t| - 1] == 'n';
  }

  lemma SuffixInjective(p: string, q: string, s: string)
    ensures p != q ==> p + s != q + s
  {
    if p + s == q + s {
      assert |p| == |q|;
      assert p == (p + s)[..|p|];
      assert q == (q + s)[..|q|];
    }
  }

  lemma PrefixKeysDisjoint(p: string, q: string)
    ensures CookieKey(p) != TokenKey(q)
    ensures p != q ==> CredKeys(p) !! CredKeys(q)
  {
    CookieKeyNotTokenKey(p, q);
    CookieKeyNotTokenKey(q, p);
    SuffixInjective(p, q, "Drupal-Cookie");
    SuffixInjective(p, q, "X-CSRF-Token");
  }

  /** Two client instances with different prefixes cannot see each other's
      writes: a change confined to one prefix's keys leaves every other
      prefix's credentials as they were. */
  lemma PrefixIsolation(a: Store, b: Store, p: string, q: string)
    requires Frame(a, b, CredKeys(p))
    requires p != q
    ensures CredsOf(a, q) == CredsOf(b, q)
  {
    PrefixKeysDisjoint(p, q);
    assert CookieKey(q) !in CredKeys(p);
    assert TokenKey(q) !in CredKeys(p);
  }

  datatype Env = Titanium | Node | Browser

  /** `SITE_ROOT`, `SERVICES_ENDPOINT` and `REST_PATH`. */
  datatype Paths = Paths(siteRoot: string, endpoint: string, restPath: string)

  /** `setRestPath(root, endpoint)`: the REST path is the endpoint under the
      site root, closed by a slash. */
  function SetRestPath(root: string, endpoint: string): (r: Paths)
    ensures r.siteRoot == root && r.endpoint == endpoint
    ensures IsPrefix(root, r.restPath)
    ensures |r.restPath| == |root| + |endpoint| + 1
    ensures r.restPath[|root|..|root| + |endpoint|] == endpoint
    ensures r.restPath[|r.restPath| - 1] == '/'
  {
    var p := root + endpoint + "/";
    assert p[..|root|] == root;
    assert p[|root|..|root| + |endpoint|] == endpoint;
    Paths(root, endpoint, p)
  }

  /** One client instance of the newer revision. */
  datatype Config = Config(env: Env, prefix: string, paths: Paths)

  /** One `setRequestHeader` call; None is a `null` or `undefined` value read
      from the store. */
  datatype Header = Header(name: string, value: Option<string>)

  predicate HasHeader(hs: seq<Header>, name: string) {
    exists i :: 0 <= i < |hs| && hs[i].name == name
  }

  /** A header name occurs in a concatenation iff it occurs in a part. */
  lemma HasHeaderAppend(a: seq<Header>, b: seq<Header>, name: string)
    ensures HasHeader(a + b, name) <==> HasHeader(a, name) || HasHeader(b, name)
  {
    if HasHeader(a + b, name) {
      var i :| 0 <= i < |a + b| && (a + b)[i].name == name;
      if i >= |a| {
        assert b[i - |a|].name == name;
      }
    }
    if HasHeader(b, name) {
      var i :| 0 <= i < |b| && b[i].name == name;
      assert (a + b)[|a| + i].name == name;
    }
    if HasHeader(a, name) {
      var i :| 0 <= i < |a| && a[i].name == name;
      assert (a + b)[i].name == name;
    }
  }

  /** `headers[name] = v` on a header object: overwrite in place, or add at the
      end. */
  function SetHeader(hs: seq<Header>, name: string, v: Option<string>): (r: seq<Header>)
    ensures HasHeader(r, name)
    ensures forall h :: h in r && h.name == name ==> h.value == v
    ensures |r| >= |hs|
    ensures forall i :: 0 <= i < |hs| && hs[i].name != name ==> r[i] == hs[i]
    ensures forall i :: |hs| <= i < |r| ==> r[i].name == name
    ensures forall h: Header :: h.name != name ==> (h in r <==> h in hs)
    ensures forall m :: m != name ==> (HasHeader(r, m) <==> HasHeader(hs, m))
  {
    if HasHeader(hs, name) then
      var r := seq(|hs|, i requires 0 <= i < |hs| => if hs[i].name == name then Header(name, v) else hs[i]);
      assert forall h: Header :: h.name != name && h in hs ==> h in r by {
        forall h: Header | h.name != name && h in hs ensures h in r {
          var i :| 0 <= i < |hs| && hs[i] == h;
          assert r[i] == h;
        }
      }
      var j :| 0 <= j < |hs| && hs[j].name == name;
      assert r[j].name == name;
      assert forall m :: m != name && HasHeader(r, m) ==> HasHeader(hs, m) by {
        forall m | m != name && HasHeader(r, m) ensures HasHeader(hs, m) {
          var i :| 0 <= i < |r| && r[i].name == m;
          assert hs[i].name == m;
        }
      }
      assert forall m :: m != name && HasHeader(hs, m) ==> HasHeader(r, m) by {
        forall m | m != name && HasHeader(hs, m) ensures HasHeader(r, m) {
          var i :| 0 <= i < |hs| && hs[i].name == m;
          assert r[i].name == m;
        }
      }
      r
    else
      var r := hs + [Header(name, v)];
      assert r[|hs|].name == name;
      assert forall m :: m != name && HasHeader(r, m) ==> HasHeader(hs, m) by {
        forall m | m != name && HasHeader(r, m) ensures HasHeader(hs, m) {
          var i :| 0 <= i < |r| && r[i].name == m;
          assert i < |hs| && hs[i].name == m;
        }
      }
      assert forall m :: m != name && HasHeader(hs, m) ==> HasHeader(r, m) by {
        forall m | m != name && HasHeader(hs, m) ensures HasHeader(r, m) {
          var i :| 0 <= i < |hs| && hs[i].name == m;
          assert r[i].name == m;
        }
      }
      r
  }

  /** What the client hands the transport. */
  datatype Request = Request(verb: string, url: string, headers: seq<Header>, body: JsValue)

  /** The parsed JSON of a Services reply, reduced to the fields the client reads. */
  datatype Payload = Payload(sessionName: string, sessid: string, token: Option<string>, user: JsValue)

  /** The single terminal event of one request: a transport error, or a
      completed load with its status, raw text and parsed body. */
  datatype Answer = NetError(cause: string) | Loaded(status: int, text: string, data: Payload)

  /** What the failure callback receives: the transport's error, or the
      response text of a non-200 reply. */
  datatype Fault = Transport(cause: string) | Rejected(text: string)

  datatype Outcome<+T> = Done(value: T) | Failed(fault: Fault) | Pending | Threw(reason: string)

  /** A non-success outcome carried over to a different result type. */
  function Relay<T, U>(o: Outcome<T>): (r: Outcome<U>)
    requires !o.Done?
    ensures r.Failed? <==> o.Failed?
    ensures r.Pending? <==> o.Pending?
    ensures o.Failed? ==> r.fault == o.fault
    ensures o.Threw? ==> r == Threw(o.reason)
  {
    match o
    case Failed(f) => Failed(f)
    case Pending => Pending
    case Threw(why) => Threw(why)
  }

  datatype Step<+T> = Step(store: Store, outcome: Outcome<T>, sent: seq<Request>, rest: seq<Answer>)

  /** `session_name + '=' + sessid`. */
  function SessionCookie(p: Payload): string {
    p.sessionName + "=" + p.sessid
  }

  /** The request options a caller passes (`config`), minus timeout, progress
      and trace. */
  datatype Call = Call(
    httpMethod: string,
    servicePath: string,
    contentType: Option<string>,
    params: JsValue,
    skipCookie: bool,
    skipCsrfToken: bool)

  const Json := "application/json"
}

=== FILE: text.dfy ===
/** String helpers shared by the encoders: `Array.prototype.join`, the split
    that reads a joined string back, and the substring test behind
    `String.prototype.replace`. */
module Text {

  /** `parts.join(sep)` for a one-character separator. */
  function Join(parts: seq<string>, sep: char): (r: string)
    ensures |parts| == 0 ==> r == ""
    ensures |parts| == 1 ==> r == parts[0]
    ensures |parts| > 0 ==> |r| >= |parts[0]|
  {
    if |parts| == 0 then ""
    else if |parts| == 1 then parts[0]
    else parts[0] + [sep] + Join(parts[1..], sep)
  }

  /** Joining two or three pieces, written out. */
  lemma JoinTwo(a: string, b: string, sep: char)
    ensures Join([a, b], sep) == a + [sep] + b
  {
    assert [a, b][1..] == [b];
  }

  lemma JoinThree(a: string, b: string, c: string, sep: char)
    ensures Join([a, b, c], sep) == a + [sep] + b + [sep] + c
  {
    assert [a, b, c][1..] == [b, c];
    JoinTwo(b, c, sep);
  }

  /** Cuts a string at every occurrence of the separator; there is always at
      least one piece. */
  function Split(s: string, sep: char): (r: seq<string>)
    ensures |r| > 0
    decreases |s|
  {
    if |s| == 0 then [""]
    else
      var tail := Split(s[1..], sep);
      if s[0] == sep then [""] + tail else [[s[0]] + tail[0]] + tail[1..]
  }

  predicate Free(s: string, c: char) {
    c !in s
  }

  /** Split undoes Join when no piece holds the separator. */
  lemma {:induction false} SplitJoin(parts: seq<string>, sep: char)
    requires |parts| > 0
    requires forall i :: 0 <= i < |parts| ==> Free(parts[i], sep)
    ensures Split(Join(parts, sep), sep) == parts
    decreases |parts|
  {
    if |parts| == 1 {
      SplitFree(parts[0], sep, []);
    } else {
      SplitJoin(parts[1..], sep);
      var tail := Join(parts[1..], sep);
      assert ([sep] + tail)[1..] == tail;
      assert Split([sep] + tail, sep) == [""] + parts[1..];
      assert parts[0] + "" == parts[0];
      SplitFree(parts[0], sep, [sep] + tail);
      assert Join(parts, sep) == parts[0] + ([sep] + tail);
      assert [parts[0]] + parts[1..] == parts;
    }
  }

  /** A separator-free prefix sticks to the first piece. */
  lemma {:induction false} SplitFree(a: string, sep: char, b: string)
    requires Free(a, sep)
    ensures Split(a + b, sep) == [a + Split(b, sep)[0]] + Split(b, sep)[1..]
    decreases |a|
  {
    if |a| == 0 {
      assert a + b == b;
      assert a + Split(b, sep)[0] == Split(b, sep)[0];
      assert [Split(b, sep)[0]] + Split(b, sep)[1..] == Split(b, sep);
    } else {
      SplitFree(a[1..], sep, b);
      assert (a + b)[1..] == a[1..] + b;
      assert [a[0]] + (a[1..] + Split(b, sep)[0]) == a + Split(b, sep)[0];
    }
  }

  /** The index of the first occurrence of `c`, or |s| when there is none. */
  function IndexOf(s: string, c: char): (k: nat)
    ensures k <= |s|
    ensures Free(s[..k], c)
    ensures k < |s| ==> s[k] == c
  {
    if |s| == 0 then 0 else if s[0] == c then 0 else 1 + IndexOf(s[1..], c)
  }

  lemma IndexOfJoined(a: string, c: char, b: string)
    requires Free(a, c)
    ensures IndexOf(a + [c] + b, c) == |a|
  {
    if |a| > 0 {
      IndexOfJoined(a[1..], c, b);
      assert (a + [c] + b)[1..] == a[1..] + [c] + b;
    }
  }

  predicate IsPrefix(t: string, s: string) {
    |t| <= |s| && s[..|t|] == t
  }

  /** Whether `t` occurs in `s`. For a non-empty `t` this is exactly when
      `s.replace(t, '')` differs from `s`. */
  predicate Contains(s: string, t: string)
    decreases |s|
  {
    IsPrefix(t, s) || (|s| > 0 && Contains(s[1..], t))
  }

  /** A string never contains a longer one. */
  lemma {:induction false} ContainsLonger(s: string, t: string)
    requires |s| < |t|
    ensures !Contains(s, t)
    decreases |s|
  {
    if |s| > 0 {
      ContainsLonger(s[1..], t);
    }
  }

  lemma {:induction false} ContainsAt(s: string, t: string, i: nat)
    requires i + |t| <= |s| && s[i..i + |t|] == t
    ensures Contains(s, t)
    decreases i
  {
    if i > 0 {
      assert s[1..][i - 1..i - 1 + |t|] == s[i..i + |t|];
      ContainsAt(s[1..], t, i - 1);
    }
  }

  lemma {:induction false} ContainsWitness(s: string, t: string) returns (i: nat)
    requires Contains(s, t)
    ensures i + |t| <= |s| && s[i..i + |t|] == t
    decreases |s|
  {
    if IsPrefix(t, s) {
      i := 0;
    } else {
      var j := ContainsWitness(s[1..], t);
      i := j + 1;
      assert s[1..][j..j + |t|] == s[i..i + |t|];
    }
  }

  predicate OccursAt(s: string, t: string, i: nat) {
    i + |t| <= |s| && s[i..i + |t|] == t
  }

  /** Contains means an occurrence at some index, in both directions. */
  lemma ContainsIff(s: string, t: string)
    ensures Contains(s, t) <==> exists i: nat :: OccursAt(s, t, i)
  {
    if Contains(s, t) {
      var i := ContainsWitness(s, t);
      assert OccursAt(s, t, i);
    }
    if exists i: nat :: OccursAt(s, t, i) {
      var i: nat :| OccursAt(s, t, i);
      ContainsAt(s, t, i);
    }
  }
}

=== FILE: uri.dfy ===
/** `encodeURIComponent` and `decodeURIComponent` (sections 15.1.3.2 and
    15.1.3.4 of ECMA-262 5.1): every character outside the unreserved set is
    written as the UTF-8 bytes of its code point, each byte as `%` and two
    upper-case hexadecimal digits (percent-encoding, section 2.1 of RFC 3986).
    A space becomes `%20`, never `+`. Strings are sequences of Unicode scalar
    values, so the lone surrogates that make the encoder throw cannot occur. */
module Uri {
  import opened Wrappers

  /** The characters `encodeURIComponent` copies unchanged. */
  predicate Unreserved(c: char) {
    ('A' <= c <= 'Z') || ('a' <= c <= 'z') || ('0' <= c <= '9')
    || c == '-' || c == '_' || c == '.' || c == '!' || c == '~' || c == '*' || c == '\'' || c == '(' || c == ')'
  }

  predicate UpperHex(c: char) {
    ('0' <= c <= '9') || ('A' <= c <= 'F')
  }

  /** The alphabet of an encoded string (the hex digits are unreserved). */
  predicate EncodedChar(c: char) {
    Unreserved(c) || c == '%'
  }

  /** The `%` at index i is followed by two upper-case hex digits. */
  predicate HexAfter(r: string, i: int)
    requires 0 <= i
  {
    i + 2 < |r| && UpperHex(r[i + 1]) && UpperHex(r[i + 2])
  }

  /** Every `%` of the string opens a `%HH` triplet. */
  predicate Triplets(r: string) {
    forall i :: 0 <= i < |r| && r[i] == '%' ==> HexAfter(r, i)
  }

  predicate IsByte(b: int) {
    0 <= b < 256
  }

  /** The UTF-8 encoding of one code point. */
  function Utf8(c: char): (bs: seq<int>)
    ensures 1 <= |bs| <= 4
    ensures forall i :: 0 <= i < |bs| ==> IsByte(bs[i])
  {
    var cp := c as int;
    var q1 := cp / 64;
    var q2 := q1 / 64;
    if cp < 0x80 then [cp]
    else if cp < 0x800 then [0xC0 + q1, 0x80 + cp % 64]
    else if cp < 0x10000 then [0xE0 + q2, 0x80 + q1 % 64, 0x80 + cp % 64]
    else [0xF0 + q2 / 64, 0x80 + q2 % 64, 0x80 + q1 % 64, 0x80 + cp % 64]
  }

  function HexDigit(d: int): (c: char)
    requires 0 <= d < 16
    ensures UpperHex(c)
  {
    if d < 10 then (48 + d) as char else (55 + d) as char
  }

  /** One byte as `%HH`. */
  function Percent(b: int): (r: string)
    requires IsByte(b)
    ensures |r| == 3 && r[0] == '%'
    ensures UpperHex(r[1]) && UpperHex(r[2])
  {
    ['%', HexDigit(b / 16), HexDigit(b % 16)]
  }

  function PercentAll(bs: seq<int>): (r: string)
    requires forall i :: 0 <= i < |bs| ==> IsByte(bs[i])
    ensures |r| == 3 * |bs|
    ensures forall i :: 0 <= i < |r| ==> r[i] == '%' || UpperHex(r[i])
    ensures Triplets(r)
  {
    if |bs| == 0 then "" else
      var tail := PercentAll(bs[1..]);
      TripletsAppend(Percent(bs[0]), tail);
      Percent(bs[0]) + tail
  }

  /** Gluing two strings of triplets gives a string of triplets. */
  lemma TripletsAppend(a: string, b: string)
    requires Triplets(a) && Triplets(b)
    ensures Triplets(a + b)
  {
    forall i | 0 <= i < |a + b| && (a + b)[i] == '%'
      ensures HexAfter(a + b, i)
    {
      if i < |a| {
        assert a[i] == '%' && HexAfter(a, i);
      } else {
        assert b[i - |a|] == '%' && HexAfter(b, i - |a|);
      }
    }
  }

  function EncodeChar(c: char): (r: string)
    ensures |r| > 0
    ensures Triplets(r)
  {
    if Unreserved(c) then [c] else PercentAll(Utf8(c))
  }

  /** `encodeURIComponent(s)`. */
  function EncodeUriComponent(s: string): (r: string)
    ensures |r| >= |s|
    ensures forall i :: 0 <= i < |r| ==> EncodedChar(r[i])
    ensures forall i :: 0 <= i < |s| && Unreserved(s[i]) ==> s[i] in r
    ensures Triplets(r)
    decreases |s|
  {
    if |s| == 0 then "" else
      var tail := EncodeUriComponent(s[1..]);
      TripletsAppend(EncodeChar(s[0]), tail);
      EncodeChar(s[0]) + tail
  }

  /** An encoded string holds none of the characters that delimit a query or
      form body, and no space or plus sign. */
  lemma EncodedHasNoDelimiters(s: string)
    ensures var r := EncodeUriComponent(s);
      '&' !in r && '=' !in r && ' ' !in r && '+' !in r && '?' !in r
  {
  }

  lemma {:induction false} EncodeAppend(a: string, b: string)
    ensures EncodeUriComponent(a + b) == EncodeUriComponent(a) + EncodeUriComponent(b)
    decreases |a|
  {
    if |a| == 0 {
      assert a + b == b;
    } else {
      assert (a + b)[1..] == a[1..] + b;
      EncodeAppend(a[1..], b);
    }
  }

  /** A space is sent as `%20` (not `+` as in HTML form serialisation). */
  lemma SpaceIsPercentTwenty()
    ensures EncodeUriComponent(" ") == "%20"
    ensures EncodeUriComponent("a b") == "a%20b"
  {
    assert Utf8(' ') == [32];
    assert Percent(32) == "%20";
    assert PercentAll([32]) == Percent(32) + PercentAll([]);
    assert EncodeChar(' ') == "%20";
    EncodeOne(' ');
    EncodeOne('a');
    EncodeOne('b');
    assert "a b" == "a" + " " + "b";
    EncodeAppend("a" + " ", "b");
    EncodeAppend("a", " ");
  }

  lemma EncodeOne(c: char)
    ensures EncodeUriComponent([c]) == EncodeChar(c)
  {
    assert [c][1..] == [];
  }

  // ---------------------------------------------------------------------
  // Decoding

  function HexValue(c: char): Option<int> {
    if '0' <= c <= '9' then Some(c as int - 48)
    else if 'A' <= c <= 'F' then Some(c as int - 55)
    else if 'a' <= c <= 'f' then Some(c as int - 87)
    else None
  }

  /** Reads one `%HH` triple at the head of `s`. */
  function ReadByte(s: string): (r: Option<int>)
    ensures r.Some? ==> IsByte(r.value)
  {
    if |s| < 3 || s[0] != '%' then None
    else match (HexValue(s[1]), HexValue(s[2]))
      case (Some(h), Some(l)) => if 0 <= h < 16 && 0 <= l < 16 then Some(16 * h + l) else None
      case _ => None
  }

  /** Reads `n` consecutive `%HH` triples. */
  function ReadBytes(s: string, n: nat): (r: Option<seq<int>>)
    ensures r.Some? ==> |r.value| == n && 3 * n <= |s|
    decreases n
  {
    if n == 0 then Some([])
    else match ReadByte(s)
      case None => None
      case Some(b) =>
        match ReadBytes(s[3..], n - 1)
        case None => None
        case Some(bs) => Some([b] + bs)
  }

  /** How many bytes a UTF-8 sequence has, read from its first byte; 0 when the
      byte cannot start one. */
  function LeadLength(b: int): nat {
    if 0 <= b < 0x80 then 1
    else if 0xC0 <= b < 0xE0 then 2
    else if 0xE0 <= b < 0xF0 then 3
    else if 0xF0 <= b < 0xF8 then 4
    else 0
  }

  predicate Continuation(b: int) {
    0x80 <= b < 0xC0
  }

  /** Decodes one UTF-8 sequence, refusing truncated, overlong and surrogate
      encodings and values above U+10FFFF, as the decoder's URIError does. */
  function Utf8Decode(bs: seq<int>): Option<char> {
    if |bs| == 0 || LeadLength(bs[0]) != |bs| then None
    else if exists i :: 1 <= i < |bs| && !Continuation(bs[i]) then None
    else
      var cp := Utf8Value(bs);
      if cp < Utf8Least(|bs|) || (0xD800 <= cp < 0xE000) || cp > 0x10FFFF then None
      else Some(cp as char)
  }

  /** The code point a well-formed sequence of `|bs|` bytes spells. */
  function Utf8Value(bs: seq<int>): int
    requires 1 <= |bs| <= 4
  {
    if |bs| == 1 then bs[0]
    else if |bs| == 2 then (bs[0] - 0xC0) * 64 + (bs[1] - 0x80)
    else if |bs| == 3 then (bs[0] - 0xE0) * 4096 + (bs[1] - 0x80) * 64 + (bs[2] - 0x80)
    else (bs[0] - 0xF0) * 262144 + (bs[1] - 0x80) * 4096 + (bs[2] - 0x80) * 64 + (bs[3] - 0x80)
  }

  /** The least code point that needs `n` bytes; anything below is overlong. */
  function Utf8Least(n: nat): int {
    if n <= 1 then 0 else if n == 2 then 0x80 else if n == 3 then 0x800 else 0x10000
  }

  function Prepend(a: string, r: Option<string>): Option<string> {
    match r
    case None => None
    case Some(t) => Some(a + t)
  }

  /** `decodeURIComponent(s)`; None is the URIError it throws. */
  function DecodeUriComponent(s: string): Option<string>
    decreases |s|
  {
    if |s| == 0 then Some("")
    else if s[0] != '%' then Prepend([s[0]], DecodeUriComponent(s[1..]))
    else match ReadByte(s)
      case None => None
      case Some(b) =>
        var n := LeadLength(b);
        if n == 0 then None
        else match ReadBytes(s, n)
          case None => None
          case Some(bs) =>
            match Utf8Decode(bs)
            case None => None
            case Some(c) => Prepend([c], DecodeUriComponent(s[3 * n..]))
  }

  // ---------------------------------------------------------------------
  // Round trip

  lemma HexRoundTrip(d: int)
    requires 0 <= d < 16
    ensures HexValue(HexDigit(d)) == Some(d)
  {
  }

  lemma ReadPercent(b: int, rest: string)
    requires IsByte(b)
    ensures ReadByte(Percent(b) + rest) == Some(b)
  {
    HexRoundTrip(b / 16);
    HexRoundTrip(b % 16);
  }

  lemma {:induction false} ReadPercentAll(bs: seq<int>, rest: string)
    requires forall i :: 0 <= i < |bs| ==> IsByte(bs[i])
    ensures ReadBytes(PercentAll(bs) + rest, |bs|) == Some(bs)
    decreases |bs|
  {
    if |bs| > 0 {
      var s := PercentAll(bs) + rest;
      assert s == Percent(bs[0]) + (PercentAll(bs[1..]) + rest);
      ReadPercent(bs[0], PercentAll(bs[1..]) + rest);
      assert s[3..] == PercentAll(bs[1..]) + rest;
      ReadPercentAll(bs[1..], rest);
      assert [bs[0]] + bs[1..] == bs;
    }
  }

  lemma Utf8Shape(c: char)
    ensures LeadLength(Utf8(c)[0]) == |Utf8(c)|
    ensures forall i :: 1 <= i < |Utf8(c)| ==> Continuation(Utf8(c)[i])
  {
    var cp := c as int;
    assert cp <= 0x10FFFF;
  }

  lemma Utf8RoundTrip(c: char)
    ensures Utf8Decode(Utf8(c)) == Some(c)
  {
    var cp := c as int;
    Utf8Shape(c);
    Utf8ValueOf(c);
  }

  lemma Utf8ValueOf(c: char)
    ensures Utf8Value(Utf8(c)) == c as int
  {
    var cp := c as int;
    var q1 := cp / 64;
    var q2 := q1 / 64;
    assert cp == q1 * 64 + cp % 64;
    assert q1 == q2 * 64 + q1 % 64;
    assert q2 == (q2 / 64) * 64 + q2 % 64;
  }

  lemma DecodeLiteral(c: char, rest: string)
    requires c != '%'
    ensures DecodeUriComponent([c] + rest) == Prepend([c], DecodeUriComponent(rest))
  {
    assert ([c] + rest)[1..] == rest;
  }

  lemma DecodeEncodedChar(c: char, rest: string)
    ensures DecodeUriComponent(EncodeChar(c) + rest) == Prepend([c], DecodeUriComponent(rest))
  {
    if Unreserved(c) {
      DecodeLiteral(c, rest);
    } else {
      var bs := Utf8(c);
      var s := PercentAll(bs) + rest;
      assert s == Percent(bs[0]) + (PercentAll(bs[1..]) + rest);
      ReadPercent(bs[0], PercentAll(bs[1..]) + rest);
      Utf8Shape(c);
      ReadPercentAll(bs, rest);
      Utf8RoundTrip(c);
      assert s[3 * |bs|..] == rest;
    }
  }

  lemma PrependTwice(a: string, b: string, r: Option<string>)
    ensures Prepend(a, Prepend(b, r)) == Prepend(a + b, r)
  {
    match r
    case None =>
    case Some(t) => assert a + (b + t) == (a + b) + t;
  }

  lemma PrependEmpty(r: Option<string>)
    ensures Prepend("", r) == r
  {
    match r
    case None =>
    case Some(t) => assert "" + t == t;
  }

  lemma {:induction false} DecodeEncodedPrefix(s: string, rest: string)
    ensures DecodeUriComponent(EncodeUriComponent(s) + rest) == Prepend(s, DecodeUriComponent(rest))
    decreases |s|
  {
    if |s| == 0 {
      assert EncodeUriComponent(s) + rest == rest;
      PrependEmpty(DecodeUriComponent(rest));
    } else {
      var e := EncodeUriComponent(s[1..]);
      assert EncodeUriComponent(s) + rest == EncodeChar(s[0]) + (e + rest);
      DecodeEncodedChar(s[0], e + rest);
      DecodeEncodedPrefix(s[1..], rest);
      PrependTwice([s[0]], s[1..], DecodeUriComponent(rest));
      assert [s[0]] + s[1..] == s;
    }
  }

  /** Decoding undoes encoding, for every string. */
  lemma DecodeEncode(s: string)
    ensures DecodeUriComponent(EncodeUriComponent(s)) == Some(s)
  {
    DecodeEncodedPrefix(s, "");
    assert EncodeUriComponent(s) + "" == EncodeUriComponent(s);
    assert s + "" == s;
  }

  /** Hence distinct strings encode differently. */
  lemma EncodeInjective(a: string, b: string)
    ensures EncodeUriComponent(a) == EncodeUriComponent(b) <==> a == b
  {
    DecodeEncode(a);
    DecodeEncode(b);
  }

  /** Text without `%` decodes to itself. */
  lemma {:induction false} DecodePlain(s: string)
    requires '%' !in s
    ensures DecodeUriComponent(s) == Some(s)
    decreases |s|
  {
    if |s| > 0 {
      DecodePlain(s[1..]);
      assert [s[0]] + s[1..] == s;
    }
  }

  /** Decoding distributes over a literal character that is not `%`. */
  lemma DecodeAfterLiteral(s: string, c: char, rest: string)
    requires c != '%'
    ensures DecodeUriComponent(EncodeUriComponent(s) + [c] + rest)
         == Prepend(s + [c], DecodeUriComponent(rest))
  {
    assert EncodeUriComponent(s) + [c] + rest == EncodeUriComponent(s) + ([c] + rest);
    DecodeEncodedPrefix(s, [c] + rest);
    DecodeLiteral(c, rest);
    PrependTwice(s, [c], DecodeUriComponent(rest));
  }
}

=== FILE: wrappers.dfy ===
/** Optional values, used wherever the JavaScript source reads something that may be absent. */
module Wrappers {

  datatype Option<+T> = None | Some(value: T)
}
